=== FILE: README.md ===
# undercloud wizard: request handling

A model of `process_request` in the undercloud wizard (`app.py`). This is
the web form that helps an operator write the `undercloud.conf` of a TripleO
undercloud. One submission goes through these steps:

1. **Normalisation.** Empty values are dropped. When "Generate Advanced" was
   pressed, the eleven advanced fields are dropped too. The three basic
   fields (`local_interface`, `network_cidr`, `node_count`) and `error` are
   then overlaid on the built-in defaults.
2. **Capacity check.** The provisioning CIDR is parsed, and the block must
   hold `node_count * 2 + 10 + 3 + 1` addresses. Otherwise the response
   carries the insufficient-addresses error.
3. **Allocation.** Every derivable field takes the operator's value when one
   was given. Otherwise it takes a fixed default or the address at a fixed
   offset into the block:
   - the local IP and the gateway at offset 1;
   - the two VIPs at offsets 2 and 3;
   - a DHCP pool of n + 10 addresses from offset 4;
   - an inspection pool of n addresses right after the DHCP pool.
4. **Configuration text.** The undercloud.conf text is filled in from the
   values.
5. **Validation.** The configuration validator runs, and its message, if
   any, becomes the error.

## Modules

| file | module | contents |
|---|---|---|
| `options.dfy` | `Options` | `Option` and `Result` |
| `text.dfy` | `Text` | decimal numerals as `str(n)` writes them and `int(s)` reads them; splitting on a separator |
| `ipv4.dfy` | `IPv4` | CIDR blocks as `netaddr.IPNetwork` sees them: size, indexing, dotted-quad text and the reading of `a.b.c.d/p` |
| `keys.dfy` | `Keys` | the parameter names the wizard knows, and how a submission's names are read as keys |
| `config.dfy` | `ConfigFile` | the undercloud.conf template and its `%`-formatting with `<br>` line breaks |
| `wizard.dfy` | `Wizard` | normalisation, the capacity check, allocation, validation, `process_request` |
| `properties.dfy` | `WizardProperties` | what `process_request` promises, stated over all requests |
| `vectors.dfy` | `Scenarios` | the cases of `test.py`, worked through the model |

Decisions and simplifications:

- **Results.** A response is the page to render with (`Form` for
  `ucw.jinja2`, `GeneratedConfig` for `generate.jinja2`) and the value map.
  The two failures of the modelled steps, which `process_request` does not
  catch, become `Err(MalformedCidr(..))` and `Err(MalformedNodeCount(..))`.
  Those are the failures of `netaddr.IPNetwork` and of `int`.
- **Parameter names.** A submission is a map from parameter names to values.
  `Keys.Decode` turns it into a map over the 19 names the wizard reads or
  writes, and drops every other name. `masquerade_network` and `config`
  are kept if submitted, although nothing reads them from a submission:
  both are overwritten on a large enough block.
- **The validator** (`validator.validate_config`) is a parameter of type
  `Params -> Option<string>`. `Scenarios.DhcpOrder` is a stand-in that
  checks only the DHCP range; it is used only for the invalid-range test.

Points where the code is easy to misread, and how the model follows it:

- **Capacity bound.** The constants at `app.py:59-63` name 10 addresses
  for virtual IPs and 3 for the undercloud. The check at `app.py:105-106`
  adds `2n` for the nodes and one more address, so a block passes when it
  holds at least `2n + 14` addresses (`Wizard.Required`). That is exactly
  what the last offset used, `2n + 13`, needs for `n >= 1`
  (`WizardProperties.CapacityCheckIsTight`).
- **The `error` field.** `test.py:49` and `test.py:59` expect an empty
  `error` on success, and no test submits one. In the code, `error` is
  among the overlaid keys (`app.py:94-98`), so a non-empty `error` the
  user submits survives a run the validator accepts
  (`WizardProperties.ValidatorDecidesError`).
- **The default block.** It is `192.168.0.0/24` (`app.py:52`).
  `test.py:38-48` expects `192.0.2.0/24` for an empty submission. The model
  follows the code (`Scenarios.EmptyRequestDefaults`). The `test.py`
  expectations are worked through instead on the "Generate Advanced" test, which
  submits `192.0.2.0/24`.
- **Zero nodes.** For `n = 0` the check admits 14 addresses while
  `inspection_start` is offset 14. Offset 14 still lies inside the block,
  but only because blocks have power-of-two sizes (`Wizard.PlanFits`).
  With zero nodes, `inspection_end` is one below `inspection_start`, so the
  ordering of the pools holds only for `n >= 1` (`WizardProperties.PoolsOrdered`).

## Model

| member | source | states |
|---|---|---|
| Text.ParseNat | app.py:105 | a node count is read exactly when it is a non-empty run of decimal digits |
| Text.ParseFromNat | app.py:111-112 | reading back the decimal text `str` gives of a number yields that number |
| IPv4.AddressAt | app.py:111-129 | `cidr[i]` lies inside the block, counted from the block's network address, and inside the 32-bit address space |
| IPv4.AddressAtOrder | app.py:119-129 | indexing preserves order and distance: `cidr[j] - cidr[i] == j - i` |
| IPv4.OctetsRoundTrip | app.py:111-129 | an address is recovered from its four octets |
| IPv4.FromOctetsRoundTrip | app.py:111-129 | four octets are recovered from the address they pack into |
| IPv4.DottedRoundTrip | app.py:111-129 | reading back the dotted quad `str(cidr[i])` gives the address |
| IPv4.ToDottedInjective | app.py:111-129 | distinct addresses have distinct dotted quads |
| IPv4.ParseDotted | app.py:104 | a dotted quad that is read names an address of the 32-bit space |
| IPv4.ParseCidr | app.py:104 | a CIDR text that is read gives a valid block: an address in the 32-bit space, prefix length at most 32 |
| IPv4.CidrRoundTrip | app.py:104 | reading back the text `address/prefix` of a valid block gives that block |
| Keys.KeyOfName | app.py:81 | each parameter name reads back as its key |
| Keys.KeyOfKnown | app.py:81 | a name reads as a key exactly when one of the wizard's keys has that name |
| Keys.NameInjective | app.py:81 | no two keys share a parameter name |
| Keys.Decode | app.py:81 | a key is in the decoded submission exactly when its name was submitted, with the value submitted under that name |
| Keys.DecodeIgnores | app.py:81 | adding a parameter the wizard does not know leaves the decoded submission unchanged |
| ConfigFile.TemplateFilled | app.py:31-50 | a value map holding the template's fourteen keys fills every placeholder, so `%` raises no KeyError |
| ConfigFile.ConfigTextLocal | app.py:133 | two value maps that agree on the template's keys give the same configuration text |
| ConfigFile.ConfigTextIgnores | app.py:133 | changing a key the template does not mention leaves the configuration text unchanged |
| ConfigFile.ConfigTextShape | app.py:31-50 | the configuration text is the nineteen template lines, each value in its place, each line followed by `<br>`; both range options read `inspection_start,inspection_end` |
| Wizard.KeySets | app.py:51-58 | the basic and the derived keys are disjoint; the template's keys are all in a full response; the buttons are not advanced keys |
| Wizard.NonEmpty | app.py:81 | an entry is kept exactly when its value is non-empty, and it keeps that value |
| Wizard.UserParamsKeep | app.py:80-85 | a key reaches allocation exactly when it was submitted non-empty and is not an advanced key of a "Generate Advanced" request; it keeps its value |
| Wizard.Normalize | app.py:94-98 | the normalised values have exactly the basic keys; each is the user's non-empty value or the default, and `error` is the user's non-empty `error` or empty |
| Wizard.PlanOffsets | app.py:119-129 | the derived offsets are 1, 2, 3, 4, n + 13, n + 14 and 2n + 13 |
| Wizard.PlanFits | app.py:103-129 | every offset lies inside any valid block that passes the capacity check, zero nodes included |
| Wizard.Parse | app.py:104-105 | a parsed setup has a valid block |
| Wizard.Derive | app.py:109-133 | derivation adds exactly the derived keys and keeps every basic value |
| Wizard.Allocate | app.py:103-136 | allocation fails exactly when the CIDR or node count cannot be read; otherwise it keeps the basic values, and it adds the derived keys exactly when the block holds 2n + 14 addresses |
| Wizard.Check | app.py:134-136 | the validator's message, if any, replaces `error`; every other key and value is kept |
| Wizard.Handle | app.py:89-137 | the handler fails exactly when the inputs cannot be read; the response keeps the normalised basic values and shows the generated page exactly when `generate` is given |
| Wizard.Process | app.py:74-137 | a request is handled exactly when its inputs can be read; the response carries the effective basic values, at most the known keys, and the generated-config page exactly when `generate` is non-empty |
| Wizard.EffectiveSubmitted | app.py:94-98 | a basic key's effective value is the value submitted under its name, when non-empty, or the default |
| Wizard.ProcessRequest | app.py:74-98 | the response to a raw submission carries each basic value as submitted under its name (or the default), and shows the generated page exactly when the `generate` parameter is non-empty |
| WizardProperties.EmptyValueIsAbsent | app.py:80-81 | submitting a key with an empty value gives the same response as not submitting it |
| WizardProperties.MalformedInputs | app.py:104-105 | a request fails outright exactly when its effective CIDR or node count cannot be read; a bad CIDR is reported before a bad node count |
| WizardProperties.GenerateAdvancedRecomputes | app.py:82-85 | with "Generate Advanced" pressed, no advanced key reaches allocation, and the response equals the one for the submission without the advanced keys |
| WizardProperties.InputsRead | app.py:80-105 | the block and node count allocation starts from are exactly what the effective (user-given, else default) CIDR and node count parse as |
| WizardProperties.ResponseIsDerived | app.py:103-137 | on a large enough block the response is the derived map, checked by the validator, on the page the request chose |
| WizardProperties.InsufficientBlock | app.py:103-108 | on a block smaller than 2n + 14 the response is the normalised values with the insufficient-addresses error |
| WizardProperties.CapacityCheck | app.py:103-108 | the response has only the basic keys exactly when the block holds fewer than 2n + 14 addresses, then with the insufficient-addresses error; otherwise it has every response key |
| WizardProperties.SmallBlock | app.py:103-108 | a block that fails the capacity check gives the basic keys only and the insufficient-addresses error |
| WizardProperties.AmpleBlock | app.py:109-133 | a block that passes the capacity check gives every response key |
| WizardProperties.PlanLayout | app.py:119-129 | the DHCP pool holds n + 10 addresses from offset 4; the inspection pool holds n addresses and starts right after it; for n >= 1 the offsets increase from the admin VIP to the end of the inspection pool |
| WizardProperties.CapacityCheckIsTight | app.py:105-106 | for at least one node, a block passes the check exactly when the last inspection address fits in it |
| WizardProperties.ZeroNodesLayout | app.py:105-129 | for zero nodes the check admits a 14-address block, which would not hold `inspection_start` at offset 14; the inspection pool ends where the DHCP pool does |
| WizardProperties.StoreKeeps | app.py:109-132 | writing the derived fields keeps the four basic values |
| WizardProperties.ResolveHostAddresses | app.py:110-118 | local IP, gateway and VIPs are the user's values or `str(cidr[1])/prefixlen`, `str(cidr[1])`, `str(cidr[2])` and `str(cidr[3])` |
| WizardProperties.ResolveDhcpPool | app.py:119-123 | the DHCP pool bounds are the user's values or `str(cidr[4])` and `str(cidr[n + 13])` |
| WizardProperties.ResolveInspectionPool | app.py:124-129 | the inspection pool bounds are the user's values or `str(cidr[n + 14])` and `str(cidr[2n + 13])` |
| WizardProperties.DerivedValues | app.py:109-132 | in a handled request on a large enough block, every derivable field is the user's value or its default, and the masquerade network equals the CIDR text |
| WizardProperties.DerivedPoolAddresses | app.py:119-129 | without user overrides the pool bounds shown are the dotted quads of the block's addresses at offsets 4, n + 13, n + 14 and 2n + 13 |
| WizardProperties.PoolsOrdered | app.py:119-129 | for n >= 1 the addresses increase: admin VIP < DHCP start < DHCP end, the inspection start is the next address after the DHCP end, and the inspection end is not below the inspection start |
| WizardProperties.ValidatorDecidesError | app.py:134-136 | on a large enough block the error shown is the validator's message, or else the user's own `error`, or empty |
| WizardProperties.FillConfig | app.py:133 | the configuration text is the template filled in with the values stored alongside it |
| WizardProperties.CheckKeepsConfig | app.py:133-136 | a configuration that matches its values still matches after validation sets the error |
| WizardProperties.ConfigMatchesValues | app.py:133-137 | the configuration shown is the template filled in with exactly the values shown next to it |
| WizardProperties.UnknownNameIgnored | app.py:74-98 | adding a parameter the wizard does not know leaves the response unchanged |
| Scenarios.TestNetParses | test.py:82 | `192.0.2.0/24` reads as the block at 192.0.2.0 with prefix 24 |
| Scenarios.GenerateAdvancedInputs | test.py:79-87 | the "Generate Advanced" test reads as 192.0.2.0/24 with two nodes, and none of its advanced values reaches allocation |
| Scenarios.GenerateAdvancedBasics | test.py:79-87 | that test keeps the form page and the basic values `eth1`, `192.0.2.0/24`, `2` |
| Scenarios.GenerateAdvancedNoError | test.py:49 | that test, under a validator that accepts, shows an empty `error` |
| Scenarios.GenerateAdvancedHosts | test.py:40-47 | it shows host name `undercloud.localdomain`, gateway `192.0.2.1` and VIPs `192.0.2.2` and `192.0.2.3` |
| Scenarios.GenerateAdvancedLocalIp | test.py:41 | it shows local IP `192.0.2.1/24` |
| Scenarios.GenerateAdvancedPools | test.py:42-45 | it shows the DHCP pool `192.0.2.4`-`192.0.2.15` and the inspection pool `192.0.2.16`-`192.0.2.17` |
| Scenarios.BasicInputEchoed | test.py:61-67 | the basic test's values come back as submitted on the form page (`ucw.jinja2`, test.py:33), with no error when the validator accepts |
| Scenarios.AdvancedInputEchoed | test.py:74-77 | every advanced value of the advanced-input test comes back as submitted, on the form page |
| Scenarios.AdvancedBasicsEchoed | test.py:74-77 | the advanced-input test's basic values come back as submitted on the form page, with no error when the validator accepts |
| Scenarios.BogusKeyIgnored | test.py:69-72 | submitting `foo=bar` gives the response to an empty submission |
| Scenarios.CrowdedBlockRejected | test.py:89-96 | 250 nodes on a /24 give the insufficient-addresses error and no derived field |
| Scenarios.BadRangeDerived | test.py:98-105 | the invalid-range test shows its submitted DHCP range `10.0.0.70`-`10.0.0.60` |
| Scenarios.ObjectionShown | app.py:134-136 | whenever the derived range is `10.0.0.70`-`10.0.0.60`, the DHCP order check's message is the error shown |
| Scenarios.BadRangeReported | test.py:98-105 | the invalid-range test shows the validator's DHCP range message as its error |
| Scenarios.GenerateShowsConfig | test.py:107-111 | pressing "Generate Configuration" leads to the generated-config page |
| Scenarios.EmptyRequestDefaults | app.py:51-53 | an empty submission gets the form page with `eth1`, `192.168.0.0/24` and `2` |

## Left out

- Page rendering: the Jinja templates, the `ucw` view and the WSGI server (`app.py:87-92` and `app.py:140-153`). Only the choice of page is modelled.
- The virtualenv bootstrap (`app.py:1-12`): environment set-up, not request handling.
- Option descriptions (`app.py:99-102`): file I/O. The description entries of the response are not modelled. Their keys are `<group>_<option>` names (`update-descriptions.py:10`), and the model takes it that none of them is one of the 19 parameter names, so they overwrite no value of the model. `opt-descriptions.json` is not part of this model.
- The configuration validator (`validator.validate_config`): validator.py is not part of this model. It is a parameter. `Scenarios.DhcpOrder` reproduces only the one message the tests look at.
- `GeneratorError` and `err_callback` (`app.py:66-71`): the exception round trip is modelled as the validator returning its message.
- The breadth of `netaddr.IPNetwork`. The model reads only `a.b.c.d/p`, with decimal octets up to 255 and a prefix up to 32. Other spellings netaddr accepts are reported as `MalformedCidr`: a bare address, IPv6, and abbreviated or non-decimal forms.
- The breadth of `int`. Signs, surrounding whitespace and non-ASCII decimal digits are reported as `MalformedNodeCount`. Python accepts a negative count: the check (`app.py:105-106`) then asks for fewer addresses, and the response's offsets (`app.py:120-127`) give an inspection range that runs backwards (and, from -10 down, a DHCP range too), with an offset below zero counted back from the end of the block. On a block too small for the offsets used (for example -7 on a /32) an `IndexError` escapes instead. The model reports every negative count as `MalformedNodeCount`.
- Which Python exception escapes `process_request`. Both uncaught failures of the modelled steps are modelled as an `Err`; the exception class is not.
- Other exceptions that escape `process_request`: a failed read of the descriptions file (`app.py:99-102`), a failed template lookup (`app.py:87-92`), and an exception other than `GeneratorError` raised by the validator (`app.py:134`). The model has no file system or templates, and its validator only returns a message.
- Repeated parameter names in one submission: the model takes one value per name.
- Wizard.ProcessRequest: does not restate that the request is handled exactly when its inputs can be read. `Wizard.Process` states that, and `WizardProperties.UnknownNameIgnored` connects the two.

=== FILE: config.dfy ===
/** The undercloud.conf text the wizard generates: a fixed template whose
    placeholders are filled from the parameter map, with each of the
    template's line breaks shown as an HTML `<br>`. */
module ConfigFile {
  import opened Keys

  /** A piece of a template line: literal text or a `%(key)s` placeholder. */
  datatype Part = Literal(text: string) | Slot(key: Key)

  type Line = seq<Part>

  const LineBreak: string := "<br>"

  /** The template, one entry per line of text. */
  const Template: seq<Line> := [
    [Literal("# Config generated by undercloud wizard")],
    [Literal("# Use these values in undercloud.conf")],
    [Literal("[DEFAULT]")],
    [Literal("undercloud_hostname = "), Slot(Hostname)],
    [Literal("local_interface = "), Slot(LocalInterface)],
    [Literal("local_mtu = "), Slot(LocalMtu)],
    [Literal("network_cidr = "), Slot(NetworkCidr)],
    [Literal("masquerade_network = "), Slot(MasqueradeNetwork)],
    [Literal("local_ip = "), Slot(LocalIp)],
    [Literal("network_gateway = "), Slot(NetworkGateway)],
    [Literal("undercloud_public_vip = "), Slot(PublicVip)],
    [Literal("undercloud_admin_vip = "), Slot(AdminVip)],
    [Literal("undercloud_service_certificate = "), Slot(ServiceCertificate)],
    [Literal("dhcp_start = "), Slot(DhcpStart)],
    [Literal("dhcp_end = "), Slot(DhcpEnd)],
    [Literal("inspection_iprange = "), Slot(InspectionStart), Literal(","), Slot(InspectionEnd)],
    [Literal("# This option name is deprecated and only included for compatibility with")],
    [Literal("# OSP director 7 installs.")],
    [Literal("discovery_iprange = "), Slot(InspectionStart), Literal(","), Slot(InspectionEnd)]
  ]

  /** Every placeholder of `line` names a key of `values`. */
  predicate LineFilled(line: Line, values: map<Key, string>) {
    forall i :: 0 <= i < |line| && line[i].Slot? ==> line[i].key in values
  }

  /** Every placeholder of `template` names a key of `values`; Python's `%`
      raises KeyError otherwise. */
  predicate Filled(template: seq<Line>, values: map<Key, string>) {
    forall i :: 0 <= i < |template| ==> LineFilled(template[i], values)
  }

  /** The keys of the wizard's template. */
  const TemplateKeys: set<Key> := {
    Hostname, LocalInterface, LocalMtu, NetworkCidr, MasqueradeNetwork,
    LocalIp, NetworkGateway, PublicVip, AdminVip,
    ServiceCertificate, DhcpStart, DhcpEnd,
    InspectionStart, InspectionEnd
  }

  function RenderLine(line: Line, values: map<Key, string>): string
    requires LineFilled(line, values)
  {
    if |line| == 0 then ""
    else
      var head := match line[0] case Literal(t) => t case Slot(k) => values[k];
      head + RenderLine(line[1..], values)
  }

  /** The filled-in lines of a template, before the line breaks go in. */
  function Lines(template: seq<Line>, values: map<Key, string>): (lines: seq<string>)
    requires Filled(template, values)
    ensures |lines| == |template|
  {
    seq(|template|, i requires 0 <= i < |template| => RenderLine(template[i], values))
  }

  /** Each line followed by `<br>`. */
  function Terminated(lines: seq<string>): string {
    if |lines| == 0 then "" else lines[0] + LineBreak + Terminated(lines[1..])
  }

  /** `template.replace('\n', '<br>') % values`: every line filled in and
      followed by a `<br>` in place of its line break. */
  function Render(template: seq<Line>, values: map<Key, string>): string
    requires Filled(template, values)
  {
    Terminated(Lines(template, values))
  }

  /** A map holding every key of the wizard's template fills it. */
  lemma TemplateFilled(values: map<Key, string>)
    requires TemplateKeys <= values.Keys
    ensures Filled(Template, values)
  {
  }

  /** The generated configuration text for a map holding every template key. */
  function ConfigText(values: map<Key, string>): string
    requires TemplateKeys <= values.Keys
  {
    TemplateFilled(values);
    Render(Template, values)
  }

  lemma {:induction false} RenderLineLocal(line: Line, v1: map<Key, string>, v2: map<Key, string>)
    requires LineFilled(line, v1) && LineFilled(line, v2)
    requires forall i :: 0 <= i < |line| && line[i].Slot? ==> v1[line[i].key] == v2[line[i].key]
    ensures RenderLine(line, v1) == RenderLine(line, v2)
    decreases |line|
  {
    if |line| > 0 {
      RenderLineLocal(line[1..], v1, v2);
    }
  }

  /** Two maps that agree on the template's keys give the same text: nothing
      outside the template's placeholders reaches the configuration. */
  lemma ConfigTextLocal(v1: map<Key, string>, v2: map<Key, string>)
    requires TemplateKeys <= v1.Keys && TemplateKeys <= v2.Keys
    requires forall k :: k in TemplateKeys ==> v1[k] == v2[k]
    ensures ConfigText(v1) == ConfigText(v2)
  {
    TemplateFilled(v1);
    TemplateFilled(v2);
    forall i | 0 <= i < |Template|
      ensures RenderLine(Template[i], v1) == RenderLine(Template[i], v2)
    {
      RenderLineLocal(Template[i], v1, v2);
    }
    assert Lines(Template, v1) == Lines(Template, v2);
  }

  /** Setting a key the template does not mention leaves the text as it is. */
  lemma ConfigTextIgnores(v: map<Key, string>, k: Key, x: string)
    requires TemplateKeys <= v.Keys && k !in TemplateKeys
    ensures ConfigText(v[k := x]) == ConfigText(v)
  {
    ConfigTextLocal(v, v[k := x]);
  }

  /** The generated text spelled out: the nineteen lines of the undercloud.conf
      template with the values in place, each followed by `<br>`; both range
      options read `inspection_start,inspection_end`. */
  lemma ConfigTextShape(v: map<Key, string>)
    requires TemplateKeys <= v.Keys
    ensures ConfigText(v) == Terminated([
      "# Config generated by undercloud wizard",
      "# Use these values in undercloud.conf",
      "[DEFAULT]",
      "undercloud_hostname = " + v[Hostname],
      "local_interface = " + v[LocalInterface],
      "local_mtu = " + v[LocalMtu],
      "network_cidr = " + v[NetworkCidr],
      "masquerade_network = " + v[MasqueradeNetwork],
      "local_ip = " + v[LocalIp],
      "network_gateway = " + v[NetworkGateway],
      "undercloud_public_vip = " + v[PublicVip],
      "undercloud_admin_vip = " + v[AdminVip],
      "undercloud_service_certificate = " + v[ServiceCertificate],
      "dhcp_start = " + v[DhcpStart],
      "dhcp_end = " + v[DhcpEnd],
      "inspection_iprange = " + v[InspectionStart] + "," + v[InspectionEnd],
      "# This option name is deprecated and only included for compatibility with",
      "# OSP director 7 installs.",
      "discovery_iprange = " + v[InspectionStart] + "," + v[InspectionEnd]
    ])
  {
    TemplateFilled(v);
    var lines := Lines(Template, v);
    forall i | i in {0, 1, 2, 16, 17}
      ensures lines[i] == Template[i][0].text
    {
      RenderLiteralLine(Template[i][0].text, v);
    }
    forall i | 3 <= i <= 14
      ensures lines[i] == Template[i][0].text + v[Template[i][1].key]
    {
      RenderSettingLine(Template[i][0].text, Template[i][1].key, v);
    }
    RenderRangeLine("inspection_iprange = ", InspectionStart, InspectionEnd, v);
    RenderRangeLine("discovery_iprange = ", InspectionStart, InspectionEnd, v);
    var expected := [
        "# Config generated by undercloud wizard",
        "# Use these values in undercloud.conf",
        "[DEFAULT]",
        "undercloud_hostname = " + v[Hostname],
        "local_interface = " + v[LocalInterface],
        "local_mtu = " + v[LocalMtu],
        "network_cidr = " + v[NetworkCidr],
        "masquerade_network = " + v[MasqueradeNetwork],
        "local_ip = " + v[LocalIp],
        "network_gateway = " + v[NetworkGateway],
        "undercloud_public_vip = " + v[PublicVip],
        "undercloud_admin_vip = " + v[AdminVip],
        "undercloud_service_certificate = " + v[ServiceCertificate],
        "dhcp_start = " + v[DhcpStart],
        "dhcp_end = " + v[DhcpEnd],
        "inspection_iprange = " + v[InspectionStart] + "," + v[InspectionEnd],
        "# This option name is deprecated and only included for compatibility with",
        "# OSP director 7 installs.",
        "discovery_iprange = " + v[InspectionStart] + "," + v[InspectionEnd]
      ];
    assert |lines| == |expected|;
    forall i | 0 <= i < |lines| ensures lines[i] == expected[i] {
    }
    assert lines == expected;
  }

  lemma RenderLiteralLine(t: string, v: map<Key, string>)
    ensures RenderLine([Literal(t)], v) == t
  {
    assert [Literal(t)][1..] == [];
  }

  lemma RenderSettingLine(t: string, k: Key, v: map<Key, string>)
    requires k in v
    ensures RenderLine([Literal(t), Slot(k)], v) == t + v[k]
  {
    var line := [Literal(t), Slot(k)];
    assert line[1..] == [Slot(k)];
    assert [Slot(k)][1..] == [];
    assert RenderLine([Slot(k)], v) == v[k] + "";
    assert RenderLine(line, v) == t + RenderLine([Slot(k)], v);
  }

  lemma RenderRangeLine(t: string, a: Key, b: Key, v: map<Key, string>)
    requires a in v && b in v
    ensures RenderLine([Literal(t), Slot(a), Literal(","), Slot(b)], v) == t + v[a] + "," + v[b]
  {
    var line := [Literal(t), Slot(a), Literal(","), Slot(b)];
    RenderSettingLine(",", b, v);
    assert line[1..] == [Slot(a), Literal(","), Slot(b)];
    assert line[1..][1..] == [Literal(","), Slot(b)];
    assert RenderLine(line[1..], v) == v[a] + RenderLine(line[1..][1..], v);
    assert RenderLine(line, v) == t + RenderLine(line[1..], v);
  }
}

=== FILE: ipv4.dfy ===
/** IPv4 addresses and CIDR blocks, restricted to what the wizard asks of
    netaddr: the size of a block, the address at an offset from its network
    address, and the dotted-quad text of an address. */
module IPv4 {
  import opened Options
  import opened Text

  /** Number of IPv4 addresses, 2^32. */
  const AddressSpace: nat := 0x1_0000_0000

  function Pow2(k: nat): (r: nat)
    ensures r >= 1
  {
    if k == 0 then 1 else 2 * Pow2(k - 1)
  }

  lemma {:induction false} Pow2Add(a: nat, b: nat)
    ensures Pow2(a + b) == Pow2(a) * Pow2(b)
    decreases a
  {
    if a > 0 {
      Pow2Add(a - 1, b);
    }
  }

  lemma Pow2Is32()
    ensures Pow2(32) == AddressSpace
  {
    Pow2Add(16, 16);
    Pow2Add(8, 8);
    Pow2Add(4, 4);
    Pow2Add(2, 2);
  }

  /** Powers of two skip from 8 straight to 16. */
  lemma Pow2Gap(k: nat)
    ensures Pow2(k) <= 8 || Pow2(k) >= 16
  {
    if k >= 4 {
      Pow2Add(4, k - 4);
      assert Pow2(4) == 16;
      MulLeMono(1, Pow2(k - 4), 16);
    } else {
      assert Pow2(0) == 1 && Pow2(1) == 2 && Pow2(2) == 4 && Pow2(3) == 8;
    }
  }

  /** A block written `address/prefix`; the host bits of `address` may be
      set, as netaddr keeps them. */
  datatype Cidr = Cidr(address: nat, prefix: nat)

  predicate Valid(c: Cidr) {
    c.address < AddressSpace && c.prefix <= 32
  }

  /** `len(cidr)`: the number of addresses in the block. */
  function Size(c: Cidr): nat
    requires c.prefix <= 32
  {
    Pow2(32 - c.prefix)
  }

  lemma ModBounds(a: nat, s: nat)
    requires s >= 1
    ensures 0 <= a % s < s
    ensures a % s <= a
  {
  }

  /** The network address: `address` with its host bits cleared. */
  function First(c: Cidr): nat
    requires c.prefix <= 32
  {
    ModBounds(c.address, Size(c));
    c.address - c.address % Size(c)
  }

  lemma MulLeMono(a: nat, b: nat, s: nat)
    requires a <= b
    ensures a * s <= b * s
  {
    assert b * s == a * s + (b - a) * s;
  }

  lemma RoundDownFits(a: nat, s: nat, k: nat)
    requires s >= 1
    requires a < s * k
    ensures a % s <= a
    ensures a - a % s + s <= s * k
  {
    var q := a / s;
    assert a == q * s + a % s;
    assert q + 1 <= k by {
      if q >= k {
        MulLeMono(k, q, s);
        assert false;
      }
    }
    MulLeMono(q + 1, k, s);
    assert (q + 1) * s == q * s + s;
  }

  lemma BlockFits(c: Cidr)
    requires Valid(c)
    ensures First(c) + Size(c) <= AddressSpace
  {
    Pow2Add(32 - c.prefix, c.prefix);
    Pow2Is32();
    RoundDownFits(c.address, Size(c), Pow2(c.prefix));
  }

  /** `cidr[i]`: the address `i` places after the network address. netaddr
      raises IndexError past the end of the block; the wizard only asks for
      offsets inside it. */
  function AddressAt(c: Cidr, i: nat): (a: nat)
    requires Valid(c)
    requires i < Size(c)
    ensures First(c) <= a < First(c) + Size(c)
    ensures a < AddressSpace
  {
    BlockFits(c);
    First(c) + i
  }

  /** Addresses keep the order of their offsets into the block. */
  lemma AddressAtOrder(c: Cidr, i: nat, j: nat)
    requires Valid(c) && i < j < Size(c)
    ensures AddressAt(c, i) < AddressAt(c, j)
    ensures AddressAt(c, j) - AddressAt(c, i) == j - i
  {
  }

  /** The low `k` bytes of `a`, most significant first. */
  function Bytes(a: nat, k: nat): (o: seq<nat>)
    ensures |o| == k
    ensures forall i :: 0 <= i < k ==> o[i] < 256
  {
    if k == 0 then [] else Bytes(a / 256, k - 1) + [a % 256]
  }

  /** The four octets of an address (taken modulo 2^32), most significant first. */
  function Octets(a: nat): (o: seq<nat>)
    ensures |o| == 4
    ensures forall i :: 0 <= i < 4 ==> o[i] < 256
  {
    Bytes(a, 4)
  }

  function FromOctets(o: seq<nat>): (a: nat)
    requires |o| == 4
    requires forall i :: 0 <= i < 4 ==> o[i] < 256
    ensures a < AddressSpace
  {
    o[0] * 0x100_0000 + o[1] * 0x1_0000 + o[2] * 0x100 + o[3]
  }

  lemma OctetsRoundTrip(a: nat)
    requires a < AddressSpace
    ensures FromOctets(Octets(a)) == a
  {
    var a1 := a / 256;
    var a2 := a1 / 256;
    var a3 := a2 / 256;
    assert Bytes(a3, 1) == [a3 % 256] by {
      assert Bytes(a3 / 256, 0) == [];
    }
    assert Bytes(a2, 2) == [a3 % 256, a2 % 256];
    assert Bytes(a1, 3) == [a3 % 256, a2 % 256, a1 % 256];
    assert Octets(a) == [a3 % 256, a2 % 256, a1 % 256, a % 256];
    assert a3 < 256;
    assert a == a1 * 256 + a % 256;
    assert a1 == a2 * 256 + a1 % 256;
    assert a2 == a3 * 256 + a2 % 256;
  }

  /** Four octets packed into an address unpack to the same octets. */
  lemma FromOctetsRoundTrip(o: seq<nat>)
    requires |o| == 4
    requires forall i :: 0 <= i < 4 ==> o[i] < 256
    ensures Octets(FromOctets(o)) == o
  {
    var a := FromOctets(o);
    var a1 := o[0] * 0x1_0000 + o[1] * 0x100 + o[2];
    var a2 := o[0] * 0x100 + o[1];
    assert a == a1 * 256 + o[3];
    assert a1 == a2 * 256 + o[2];
    assert a2 == o[0] * 256 + o[1];
    assert a / 256 == a1 && a % 256 == o[3];
    assert a1 / 256 == a2 && a1 % 256 == o[2];
    assert a2 / 256 == o[0] && a2 % 256 == o[1];
    assert o[0] / 256 == 0 && o[0] % 256 == o[0];
    assert Bytes(o[0], 1) == [o[0]] by {
      assert Bytes(o[0] / 256, 0) == [];
    }
    assert Bytes(a2, 2) == [o[0], o[1]];
    assert Bytes(a1, 3) == [o[0], o[1], o[2]];
    assert Bytes(a, 4) == [o[0], o[1], o[2], o[3]];
  }

  /** `str(IPAddress(a))`: dotted-quad text, each octet in decimal. */
  function ToDotted(a: nat): string {
    var o := Octets(a);
    FromNat(o[0]) + "." + FromNat(o[1]) + "." + FromNat(o[2]) + "." + FromNat(o[3])
  }

  /** One decimal octet, at most 255. */
  function ParseOctet(s: string): (r: Option<nat>)
    ensures r.Some? ==> r.value < 256
  {
    match ParseNat(s)
    case Some(v) => if v < 256 then Some(v) else None
    case None => None
  }

  /** Reads `a.b.c.d` with four decimal octets; anything else is rejected. */
  function ParseDotted(s: string): (r: Option<nat>)
    ensures r.Some? ==> r.value < AddressSpace
  {
    var parts := SplitOn(s, '.');
    if |parts| != 4 then None
    else
      match (ParseOctet(parts[0]), ParseOctet(parts[1]), ParseOctet(parts[2]), ParseOctet(parts[3]))
      case (Some(a), Some(b), Some(c), Some(d)) => Some(FromOctets([a, b, c, d]))
      case _ => None
  }

  /** The dotted quad is the four octets' decimal texts joined by dots. */
  lemma DottedIsJoin(a: nat)
    ensures var o := Octets(a);
      ToDotted(a) == Join([FromNat(o[0]), FromNat(o[1]), FromNat(o[2]), FromNat(o[3])], '.')
  {
    var o := Octets(a);
    var parts := [FromNat(o[0]), FromNat(o[1]), FromNat(o[2]), FromNat(o[3])];
    assert parts[1..][1..][1..] == [parts[3]];
    assert Join(parts[2..], '.') == parts[2] + "." + parts[3] by {
      assert parts[2..][1..] == [parts[3]];
    }
    assert Join(parts[1..], '.') == parts[1] + "." + parts[2] + "." + parts[3] by {
      assert parts[1..][1..] == parts[2..];
    }
  }

  /** Reading back the dotted-quad text of an address gives the address. */
  lemma DottedRoundTrip(a: nat)
    requires a < AddressSpace
    ensures ParseDotted(ToDotted(a)) == Some(a)
  {
    DottedIsJoin(a);
    ParseJoinedOctets(Octets(a));
    OctetsRoundTrip(a);
  }

  /** Four octets' decimal texts joined by dots read back as those octets. */
  lemma ParseJoinedOctets(o: seq<nat>)
    requires |o| == 4 && forall i :: 0 <= i < 4 ==> o[i] < 256
    ensures ParseDotted(Join([FromNat(o[0]), FromNat(o[1]), FromNat(o[2]), FromNat(o[3])], '.'))
      == Some(FromOctets(o))
  {
    var parts := [FromNat(o[0]), FromNat(o[1]), FromNat(o[2]), FromNat(o[3])];
    forall i | 0 <= i < 4
      ensures '.' !in parts[i]
      ensures ParseOctet(parts[i]) == Some(o[i])
    {
      ParseFromNat(o[i]);
    }
    SplitOnJoin(parts, '.');
  }

  /** Dotted-quad text is injective on addresses. */
  lemma ToDottedInjective(a: nat, b: nat)
    requires a < AddressSpace && b < AddressSpace
    requires ToDotted(a) == ToDotted(b)
    ensures a == b
  {
    DottedRoundTrip(a);
    DottedRoundTrip(b);
  }

  /** `str(cidr)`: the address as given, a slash, the prefix length. */
  function CidrToString(c: Cidr): string
    requires Valid(c)
  {
    Join([ToDotted(c.address), FromNat(c.prefix)], '/')
  }

  /** Reads `a.b.c.d/p` with a prefix length of at most 32. */
  function ParseCidr(s: string): (r: Option<Cidr>)
    ensures r.Some? ==> Valid(r.value)
  {
    var parts := SplitOn(s, '/');
    if |parts| != 2 then None
    else
      match (ParseDotted(parts[0]), ParseNat(parts[1]))
      case (Some(a), Some(p)) => if p <= 32 then Some(Cidr(a, p)) else None
      case _ => None
  }

  lemma DottedHasNoSlash(a: nat)
    requires a < AddressSpace
    ensures '/' !in ToDotted(a)
  {
    var o := Octets(a);
    var parts := [FromNat(o[0]), FromNat(o[1]), FromNat(o[2]), FromNat(o[3])];
    DottedIsJoin(a);
    JoinAvoids(parts, '.', '/');
  }

  lemma {:induction false} JoinAvoids(parts: seq<string>, sep: char, c: char)
    requires |parts| >= 1
    requires c != sep
    requires forall i :: 0 <= i < |parts| ==> c !in parts[i]
    ensures c !in Join(parts, sep)
    decreases |parts|
  {
    if |parts| > 1 {
      JoinAvoids(parts[1..], sep, c);
    }
  }

  /** Reading back the text of a valid block gives the block. */
  lemma CidrRoundTrip(c: Cidr)
    requires Valid(c)
    ensures ParseCidr(CidrToString(c)) == Some(c)
  {
    DottedHasNoSlash(c.address);
    SplitOnJoin([ToDotted(c.address), FromNat(c.prefix)], '/');
    DottedRoundTrip(c.address);
    ParseFromNat(c.prefix);
  }
}

=== FILE: keys.dfy ===
/** The form-parameter names the wizard reads or writes. A submission's
    names are read into `Key`s once, on arrival; any other name cannot
    influence a response, so it is not carried further. */
module Keys {
  import opened Options

  datatype Key =
    | LocalInterface | NetworkCidr | NodeCount | Error
    | Hostname | LocalIp | LocalMtu | NetworkGateway
    | PublicVip | AdminVip | ServiceCertificate
    | DhcpStart | DhcpEnd | InspectionStart | InspectionEnd
    | MasqueradeNetwork | Config
    /** Form buttons: regenerate the advanced values, or show the final text. */
    | GenerateAdvanced | Generate

  const AllKeys: set<Key> := {
    LocalInterface, NetworkCidr, NodeCount, Error,
    Hostname, LocalIp, LocalMtu, NetworkGateway,
    PublicVip, AdminVip, ServiceCertificate,
    DhcpStart, DhcpEnd, InspectionStart, InspectionEnd,
    MasqueradeNetwork, Config, GenerateAdvanced, Generate
  }

  /** The parameter name a key stands for. */
  function Name(k: Key): string {
    match k
    case LocalInterface => "local_interface"
    case NetworkCidr => "network_cidr"
    case NodeCount => "node_count"
    case Error => "error"
    case Hostname => "hostname"
    case LocalIp => "local_ip"
    case LocalMtu => "local_mtu"
    case NetworkGateway => "network_gateway"
    case PublicVip => "undercloud_public_vip"
    case AdminVip => "undercloud_admin_vip"
    case ServiceCertificate => "undercloud_service_certificate"
    case DhcpStart => "dhcp_start"
    case DhcpEnd => "dhcp_end"
    case InspectionStart => "inspection_start"
    case InspectionEnd => "inspection_end"
    case MasqueradeNetwork => "masquerade_network"
    case Config => "config"
    case GenerateAdvanced => "genadv"
    case Generate => "generate"
  }

  /** The key a parameter name stands for, if the wizard knows the name. */
  function KeyOf(s: string): (r: Option<Key>)
    ensures r.Some? ==> Name(r.value) == s
  {
    if s == "local_interface" then Some(LocalInterface)
    else if s == "network_cidr" then Some(NetworkCidr)
    else if s == "node_count" then Some(NodeCount)
    else if s == "error" then Some(Error)
    else if s == "hostname" then Some(Hostname)
    else if s == "local_ip" then Some(LocalIp)
    else if s == "local_mtu" then Some(LocalMtu)
    else if s == "network_gateway" then Some(NetworkGateway)
    else if s == "undercloud_public_vip" then Some(PublicVip)
    else if s == "undercloud_admin_vip" then Some(AdminVip)
    else if s == "undercloud_service_certificate" then Some(ServiceCertificate)
    else if s == "dhcp_start" then Some(DhcpStart)
    else if s == "dhcp_end" then Some(DhcpEnd)
    else if s == "inspection_start" then Some(InspectionStart)
    else if s == "inspection_end" then Some(InspectionEnd)
    else if s == "masquerade_network" then Some(MasqueradeNetwork)
    else if s == "config" then Some(Config)
    else if s == "genadv" then Some(GenerateAdvanced)
    else if s == "generate" then Some(Generate)
    else None
  }

  /** Every key's name reads back as that key. */
  lemma KeyOfName(k: Key)
    ensures KeyOf(Name(k)) == Some(k)
  {
    if k in {LocalInterface, NetworkCidr, NodeCount, Error, Hostname, LocalIp} {
      KeyOfFormName(k);
    } else if k in {LocalMtu, NetworkGateway, PublicVip, AdminVip, ServiceCertificate, DhcpStart} {
      KeyOfAddressName(k);
    } else if k in {DhcpEnd, InspectionStart, InspectionEnd, MasqueradeNetwork} {
      KeyOfRangeName(k);
    } else {
      KeyOfButtonName(k);
    }
  }

  /** `KeyOfName` for the basic fields and the first advanced ones. */
  lemma KeyOfFormName(k: Key)
    requires k in {LocalInterface, NetworkCidr, NodeCount, Error, Hostname, LocalIp}
    ensures KeyOf(Name(k)) == Some(k)
  {
  }

  /** `KeyOfName` for the next advanced fields. */
  lemma KeyOfAddressName(k: Key)
    requires k in {LocalMtu, NetworkGateway, PublicVip, AdminVip, ServiceCertificate, DhcpStart}
    ensures KeyOf(Name(k)) == Some(k)
  {
  }

  /** `KeyOfName` for the pool bounds and the masquerade network. */
  lemma KeyOfRangeName(k: Key)
    requires k in {DhcpEnd, InspectionStart, InspectionEnd, MasqueradeNetwork}
    ensures KeyOf(Name(k)) == Some(k)
  {
  }

  /** `KeyOfName` for the configuration text and the buttons. */
  lemma KeyOfButtonName(k: Key)
    requires k in {Config, GenerateAdvanced, Generate}
    ensures KeyOf(Name(k)) == Some(k)
  {
  }

  /** A name reads as a key exactly when some key has it: `KeyOf` inverts
      `Name` and knows no other name. */
  lemma KeyOfKnown(s: string)
    ensures KeyOf(s).Some? <==> exists k :: Name(k) == s
  {
    if exists k :: Name(k) == s {
      var k :| Name(k) == s;
      KeyOfName(k);
    }
  }

  /** Distinct keys have distinct names. */
  lemma NameInjective(a: Key, b: Key)
    requires Name(a) == Name(b)
    ensures a == b
  {
    KeyOfName(a);
    KeyOfName(b);
  }

  /** A submission: parameter names to their values. */
  type Request = map<string, string>

  /** The submission's known names read as keys. */
  function Decode(request: Request): (p: map<Key, string>)
    ensures forall k :: k in p <==> Name(k) in request
    ensures forall k :: k in p ==> p[k] == request[Name(k)]
  {
    map k | k in AllKeys && Name(k) in request :: request[Name(k)]
  }

  /** One key of a decoded submission. */
  lemma DecodeKey(request: Request, k: Key)
    ensures k in Decode(request) <==> Name(k) in request
    ensures k in Decode(request) ==> Decode(request)[k] == request[Name(k)]
  {
  }

  /** A name the wizard does not know leaves the decoded submission as it is. */
  lemma DecodeIgnores(request: Request, name: string, value: string)
    requires KeyOf(name).None?
    ensures Decode(request[name := value]) == Decode(request)
  {
    KeyOfKnown(name);
  }
}

=== FILE: options.dfy ===
/** Failure-carrying wrappers shared by the other modules. */
module Options {

  /** A value that may be missing, as Python's `dict.get` without a default. */
  datatype Option<+T> = None | Some(value: T)

  /** Either a computed value or the reason the computation was abandoned. */
  datatype Result<+T, +E> = Ok(value: T) | Err(error: E)
}

=== FILE: properties.dfy ===
/** What `process_request` promises, stated over whole requests. */
module WizardProperties {
  import opened Options
  import opened Text
  import IPv4
  import ConfigFile
  import opened Keys
  import opened Wizard

  /** A key submitted with an empty value is treated as if it were absent. */
  lemma EmptyValueIsAbsent(request: Params, k: Key, validate: Validator)
    requires k in request && request[k] == ""
    ensures Process(request, validate) == Process(request - {k}, validate)
  {
    var rest := request - {k};
    assert NonEmpty(request) == NonEmpty(rest);
    assert UserParams(request) == UserParams(rest);
    assert Process(request, validate) == Handle(UserParams(request), validate);
    assert Process(rest, validate) == Handle(UserParams(rest), validate);
  }

  /** A request fails outright, with an exception `process_request` does
      not catch, exactly when its effective CIDR or node count cannot be
      read; a value left empty falls back to the default. */
  lemma MalformedInputs(request: Params, validate: Validator)
    ensures Process(request, validate).Err? <==>
      IPv4.ParseCidr(Effective(request, NetworkCidr)).None? ||
      ParseNat(Effective(request, NodeCount)).None?
    ensures Process(request, validate).Err? ==>
      Process(request, validate).error ==
        if IPv4.ParseCidr(Effective(request, NetworkCidr)).None?
        then MalformedCidr(Effective(request, NetworkCidr))
        else MalformedNodeCount(Effective(request, NodeCount))
  {
    var values := Normalize(request);
    assert values[NetworkCidr] == Effective(request, NetworkCidr);
    assert values[NodeCount] == Effective(request, NodeCount);
  }

  /** The request's effective CIDR reads as `cidr` and its effective node
      count as `n`: the inputs `process_request` allocates from. */
  predicate Reads(request: Params, cidr: IPv4.Cidr, n: nat) {
    && IPv4.ParseCidr(Effective(request, NetworkCidr)) == Some(cidr)
    && ParseNat(Effective(request, NodeCount)) == Some(n)
  }

  /** The parsed inputs of a request are exactly what its effective CIDR
      and node count read as. */
  lemma InputsRead(request: Params, cidr: IPv4.Cidr, n: nat)
    ensures Inputs(request) == Ok(Setup(cidr, n)) <==> Reads(request, cidr, n)
  {
    var values := Normalize(request);
    assert values[NetworkCidr] == Effective(request, NetworkCidr);
    assert values[NodeCount] == Effective(request, NodeCount);
  }

  /** With "Generate Advanced" pressed no advanced field reaches allocation,
      so the response is the one for the submission without them. */
  lemma GenerateAdvancedRecomputes(request: Params, validate: Validator)
    requires GenerateAdvanced in request && request[GenerateAdvanced] != ""
    ensures UserParams(request).Keys !! AdvancedKeys
    ensures Process(request, validate) == Process(request - AdvancedKeys, validate)
  {
    assert UserParams(request) == UserParams(request - AdvancedKeys);
  }

  /** A handled request whose block is large enough carries the derived
      map, checked by the validator. */
  lemma ResponseIsDerived(request: Params, validate: Validator, cidr: IPv4.Cidr, n: nat)
    requires Reads(request, cidr, n)
    requires IPv4.Size(cidr) >= 2 * n + 14
    ensures var params := UserParams(request);
      Process(request, validate) ==
        Ok(Response(PageFor(params), Check(Derive(params, Normalize(request), cidr, n), validate)))
  {
    InputsRead(request, cidr, n);
    var params := UserParams(request);
    var values := Normalize(request);
    assert Allocate(params, values, validate) == Ok(Check(Derive(params, values, cidr, n), validate));
  }

  /** A handled request whose block is too small carries the normalised
      values with the insufficient-addresses error and nothing else. */
  lemma InsufficientBlock(request: Params, validate: Validator, cidr: IPv4.Cidr, n: nat)
    requires Reads(request, cidr, n)
    requires IPv4.Size(cidr) < 2 * n + 14
    ensures var params := UserParams(request);
      Process(request, validate) ==
        Ok(Response(PageFor(params), Normalize(request)[Error := InsufficientAddresses]))
  {
    InputsRead(request, cidr, n);
    var params := UserParams(request);
    var values := Normalize(request);
    assert Allocate(params, values, validate) == Ok(values[Error := InsufficientAddresses]);
  }

  /** The capacity check: a block smaller than 2n + 14 addresses yields the
      insufficient-addresses error and no derived field at all; a large
      enough one yields every field. */
  lemma CapacityCheck(request: Params, validate: Validator, cidr: IPv4.Cidr, n: nat)
    requires Reads(request, cidr, n)
    ensures var r := Process(request, validate);
      && r.Ok?
      && (IPv4.Size(cidr) < 2 * n + 14 <==> r.value.values.Keys == BasicKeys)
      && (IPv4.Size(cidr) < 2 * n + 14 ==> r.value.values[Error] == InsufficientAddresses)
      && (IPv4.Size(cidr) >= 2 * n + 14 ==> r.value.values.Keys == ResponseKeys)
  {
    if IPv4.Size(cidr) < 2 * n + 14 {
      SmallBlock(request, validate, cidr, n);
    } else {
      KeySets();
      AmpleBlock(request, validate, cidr, n);
      assert Config in ResponseKeys - BasicKeys;
    }
  }

  /** A handled request whose block fails the capacity check carries the
      basic keys only, with the insufficient-addresses error. */
  lemma SmallBlock(request: Params, validate: Validator, cidr: IPv4.Cidr, n: nat)
    requires Reads(request, cidr, n)
    requires IPv4.Size(cidr) < 2 * n + 14
    ensures var r := Process(request, validate);
      r.Ok? && r.value.values.Keys == BasicKeys && r.value.values[Error] == InsufficientAddresses
  {
    KeySets();
    InsufficientBlock(request, validate, cidr, n);
  }

  /** A handled request whose block passes the capacity check carries every
      key a response can. */
  lemma AmpleBlock(request: Params, validate: Validator, cidr: IPv4.Cidr, n: nat)
    requires Reads(request, cidr, n)
    requires IPv4.Size(cidr) >= 2 * n + 14
    ensures var r := Process(request, validate);
      r.Ok? && r.value.values.Keys == ResponseKeys
  {
    KeySets();
    ResponseIsDerived(request, validate, cidr, n);
  }

  /** The allocation layout in closed form: local IP and gateway at offset 1,
      the VIPs at 2 and 3, a DHCP pool of n + 10 addresses from offset 4, and
      right after it an inspection pool of n addresses, ending at 2n + 13. */
  lemma PlanLayout(n: nat)
    ensures var p := PlanFor(n);
      && p.localIp == 1 && p.publicVip == 2 && p.adminVip == 3 && p.dhcpStart == 4
      && p.dhcpEnd == n + 13 && p.inspectionStart == n + 14 && p.inspectionEnd == 2 * n + 13
      && p.dhcpEnd + 1 - p.dhcpStart == n + VirtualIps
      && p.inspectionStart == p.dhcpEnd + 1
      && p.inspectionEnd + 1 - p.inspectionStart == n
      && (n >= 1 ==> p.adminVip < p.dhcpStart < p.dhcpEnd < p.inspectionStart <= p.inspectionEnd)
  {
  }

  /** For at least one node the capacity check is exactly "the last
      inspection address fits": it rejects no block the plan would fit in. */
  lemma CapacityCheckIsTight(n: nat, size: nat)
    requires n >= 1
    ensures size >= Required(n) <==> PlanFor(n).inspectionEnd < size
    ensures Required(n) == 2 * n + 14
  {
  }

  /** For zero nodes the check alone does not keep the plan inside the
      block: it admits 14 addresses while `inspection_start` is offset 14,
      outside a block of that size. (`Wizard.PlanFits` closes the gap:
      block sizes are powers of two, so no block holds exactly 14.) The
      inspection pool is then empty and ends where the DHCP pool does. */
  lemma ZeroNodesLayout()
    ensures Required(0) == 14 && PlanFor(0).inspectionStart == 14
    ensures !(PlanFor(0).inspectionStart < Required(0))
    ensures PlanFor(0).inspectionEnd == PlanFor(0).dhcpEnd
  {
  }

  /** Every field is stored under its own key. */
  lemma StoreFields(values: Params, f: Fields)
    requires BasicKeys <= values.Keys
    ensures var v := Store(values, f);
      && v[Hostname] == f.hostname && v[LocalIp] == f.localIp && v[LocalMtu] == f.localMtu
      && v[NetworkGateway] == f.gateway && v[PublicVip] == f.publicVip && v[AdminVip] == f.adminVip
      && v[DhcpStart] == f.dhcpStart && v[DhcpEnd] == f.dhcpEnd
      && v[InspectionStart] == f.inspectionStart && v[InspectionEnd] == f.inspectionEnd
      && v[ServiceCertificate] == f.certificate && v[MasqueradeNetwork] == values[NetworkCidr]
  {
  }

  /** Storing the fields keeps the basic values. */
  lemma StoreKeeps(values: Params, f: Fields)
    requires BasicKeys <= values.Keys
    ensures var v := Store(values, f);
      && v[LocalInterface] == values[LocalInterface] && v[NetworkCidr] == values[NetworkCidr]
      && v[NodeCount] == values[NodeCount] && v[Error] == values[Error]
  {
  }

  /** Every field lands under its own key; the basic values are kept. */
  lemma FillFields(values: Params, f: Fields)
    requires BasicKeys <= values.Keys
    ensures var v := Fill(values, f);
      && v[Hostname] == f.hostname && v[LocalIp] == f.localIp && v[LocalMtu] == f.localMtu
      && v[NetworkGateway] == f.gateway && v[PublicVip] == f.publicVip && v[AdminVip] == f.adminVip
      && v[DhcpStart] == f.dhcpStart && v[DhcpEnd] == f.dhcpEnd
      && v[InspectionStart] == f.inspectionStart && v[InspectionEnd] == f.inspectionEnd
      && v[ServiceCertificate] == f.certificate && v[MasqueradeNetwork] == values[NetworkCidr]
      && v[LocalInterface] == values[LocalInterface] && v[NetworkCidr] == values[NetworkCidr]
      && v[NodeCount] == values[NodeCount] && v[Error] == values[Error]
  {
    var w := Store(values, f);
    StoreFields(values, f);
    StoreKeeps(values, f);
    assert Fill(values, f) == w[Config := ConfigFile.ConfigText(w)];
  }

  /** The resolved fields with fixed defaults. */
  lemma ResolveDefaults(params: Params, cidr: IPv4.Cidr, n: nat)
    requires IPv4.Valid(cidr) && IPv4.Size(cidr) >= Required(n)
    ensures var f := Resolve(params, cidr, n);
      && f.hostname == Get(params, Hostname, "undercloud.localdomain")
      && f.localMtu == Get(params, LocalMtu, "1500")
      && f.certificate == Get(params, ServiceCertificate, "")
  {
  }

  /** The resolved undercloud addresses: the user's value, or the address at
      offset 1 into the block (the local IP with the prefix length, and the
      gateway), 2 and 3. */
  lemma ResolveHostAddresses(params: Params, cidr: IPv4.Cidr, n: nat)
    requires IPv4.Valid(cidr) && IPv4.Size(cidr) >= Required(n)
    ensures 3 < IPv4.Size(cidr)
    ensures var f := Resolve(params, cidr, n);
      && f.localIp == Get(params, LocalIp, Dotted(cidr, 1) + "/" + FromNat(cidr.prefix))
      && f.gateway == Get(params, NetworkGateway, Dotted(cidr, 1))
      && f.publicVip == Get(params, PublicVip, Dotted(cidr, 2))
      && f.adminVip == Get(params, AdminVip, Dotted(cidr, 3))
  {
    PlanOffsets(n);
    PlanFits(cidr, n);
  }

  /** The resolved DHCP pool: the user's value, or the address at offset
      4 and n + 13 into the block. */
  lemma ResolveDhcpPool(params: Params, cidr: IPv4.Cidr, n: nat)
    requires IPv4.Valid(cidr) && IPv4.Size(cidr) >= Required(n)
    ensures n + 13 < IPv4.Size(cidr)
    ensures var f := Resolve(params, cidr, n);
      && f.dhcpStart == Get(params, DhcpStart, Dotted(cidr, 4))
      && f.dhcpEnd == Get(params, DhcpEnd, Dotted(cidr, n + 13))
  {
    PlanOffsets(n);
    PlanFits(cidr, n);
  }

  /** The resolved inspection pool: the user's value, or the address at
      offset n + 14 and 2n + 13 into the block. */
  lemma ResolveInspectionPool(params: Params, cidr: IPv4.Cidr, n: nat)
    requires IPv4.Valid(cidr) && IPv4.Size(cidr) >= Required(n)
    ensures n + 14 < IPv4.Size(cidr) && 2 * n + 13 < IPv4.Size(cidr)
    ensures var f := Resolve(params, cidr, n);
      && f.inspectionStart == Get(params, InspectionStart, Dotted(cidr, n + 14))
      && f.inspectionEnd == Get(params, InspectionEnd, Dotted(cidr, 2 * n + 13))
  {
    PlanOffsets(n);
    PlanFits(cidr, n);
  }

  /** The validator's check touches nothing but the error. */
  lemma CheckKeeps(d: Params, validate: Validator, k: Key)
    requires Error in d && k in d && k != Error
    ensures var c := Check(d, validate); k in c && c[k] == d[k]
  {
  }

  /** Every derivable field of a handled request whose block is large
      enough: the user's value when given, otherwise its fixed default or
      the address at the plan's offset from the block's network address;
      the masquerade network is the CIDR text. */
  lemma DerivedValues(request: Params, validate: Validator, cidr: IPv4.Cidr, n: nat)
    requires Reads(request, cidr, n)
    requires IPv4.Size(cidr) >= 2 * n + 14
    ensures Inputs(request) == Ok(Setup(cidr, n))
    ensures IPv4.Valid(cidr) && 2 * n + 13 < IPv4.Size(cidr)
    ensures var r := Process(request, validate);
      var p := UserParams(request);
      && r.Ok?
      && r.value.values.Keys == ResponseKeys
      && r.value.values[Hostname] == Get(p, Hostname, "undercloud.localdomain")
      && r.value.values[LocalMtu] == Get(p, LocalMtu, "1500")
      && r.value.values[ServiceCertificate] == Get(p, ServiceCertificate, "")
      && r.value.values[LocalIp] == Get(p, LocalIp, Dotted(cidr, 1) + "/" + FromNat(cidr.prefix))
      && r.value.values[NetworkGateway] == Get(p, NetworkGateway, Dotted(cidr, 1))
      && r.value.values[PublicVip] == Get(p, PublicVip, Dotted(cidr, 2))
      && r.value.values[AdminVip] == Get(p, AdminVip, Dotted(cidr, 3))
      && r.value.values[DhcpStart] == Get(p, DhcpStart, Dotted(cidr, 4))
      && r.value.values[DhcpEnd] == Get(p, DhcpEnd, Dotted(cidr, n + 13))
      && r.value.values[InspectionStart] == Get(p, InspectionStart, Dotted(cidr, n + 14))
      && r.value.values[InspectionEnd] == Get(p, InspectionEnd, Dotted(cidr, 2 * n + 13))
      && r.value.values[MasqueradeNetwork] == r.value.values[NetworkCidr]
  {
    InputsRead(request, cidr, n);
    var params := UserParams(request);
    var values := Normalize(request);
    var f := Resolve(params, cidr, n);
    ResponseIsDerived(request, validate, cidr, n);
    FillFields(values, f);
    ResolveDefaults(params, cidr, n);
    ResolveHostAddresses(params, cidr, n);
    ResolveDhcpPool(params, cidr, n);
    ResolveInspectionPool(params, cidr, n);
  }

  /** With none of the pool bounds overridden, the pool bounds shown are the
      dotted texts of the plan's addresses of the block. */
  lemma DerivedPoolAddresses(request: Params, validate: Validator, cidr: IPv4.Cidr, n: nat)
    requires Reads(request, cidr, n)
    requires IPv4.Size(cidr) >= 2 * n + 14
    requires DhcpStart !in UserParams(request) && DhcpEnd !in UserParams(request)
    requires InspectionStart !in UserParams(request) && InspectionEnd !in UserParams(request)
    ensures Inputs(request) == Ok(Setup(cidr, n))
    ensures IPv4.Valid(cidr) && 2 * n + 13 < IPv4.Size(cidr)
    ensures var r := Process(request, validate);
      && r.Ok?
      && r.value.values.Keys == ResponseKeys
      && r.value.values[DhcpStart] == IPv4.ToDotted(IPv4.AddressAt(cidr, 4))
      && r.value.values[DhcpEnd] == IPv4.ToDotted(IPv4.AddressAt(cidr, n + 13))
      && r.value.values[InspectionStart] == IPv4.ToDotted(IPv4.AddressAt(cidr, n + 14))
      && r.value.values[InspectionEnd] == IPv4.ToDotted(IPv4.AddressAt(cidr, 2 * n + 13))
  {
    InputsRead(request, cidr, n);
    DerivedValues(request, validate, cidr, n);
  }

  /** In a block that passes the capacity check with at least one node, the
      plan's addresses come in the order the installer needs: the DHCP pool
      after the VIPs, and the inspection pool right after the DHCP pool. */
  lemma PoolsOrdered(cidr: IPv4.Cidr, n: nat)
    requires IPv4.Valid(cidr) && IPv4.Size(cidr) >= 2 * n + 14 && n >= 1
    ensures IPv4.AddressAt(cidr, 3) < IPv4.AddressAt(cidr, 4) < IPv4.AddressAt(cidr, n + 13)
    ensures IPv4.AddressAt(cidr, n + 14) == IPv4.AddressAt(cidr, n + 13) + 1
    ensures IPv4.AddressAt(cidr, n + 14) <= IPv4.AddressAt(cidr, 2 * n + 13)
  {
    IPv4.AddressAtOrder(cidr, 3, 4);
    IPv4.AddressAtOrder(cidr, 4, n + 13);
    IPv4.AddressAtOrder(cidr, n + 13, n + 14);
    if n > 1 {
      IPv4.AddressAtOrder(cidr, n + 14, 2 * n + 13);
    }
  }

  /** The error shown with a derived response: the validator's message when
      it objects, otherwise whatever `error` the user submitted, or empty. */
  lemma ValidatorDecidesError(request: Params, validate: Validator, cidr: IPv4.Cidr, n: nat)
    requires Reads(request, cidr, n)
    requires IPv4.Size(cidr) >= 2 * n + 14
    ensures var d := Derive(UserParams(request), Normalize(request), cidr, n);
      var r := Process(request, validate);
      && r.Ok?
      && r.value.values[Error] == match validate(d)
           case Some(m) => m
           case None => if Error in request && request[Error] != "" then request[Error] else ""
  {
    var params := UserParams(request);
    var values := Normalize(request);
    var d := Derive(params, values, cidr, n);
    ResponseIsDerived(request, validate, cidr, n);
    KeySets();
    assert d[Error] == values[Error];
  }

  /** The configuration text is the template filled in with the values
      stored alongside it. */
  lemma FillConfig(values: Params, f: Fields)
    requires BasicKeys <= values.Keys
    ensures var v := Fill(values, f);
      ConfigFile.TemplateKeys <= v.Keys && v[Config] == ConfigFile.ConfigText(v)
  {
    var v := Fill(values, f);
    var w := Store(values, f);
    assert ConfigFile.TemplateKeys <= w.Keys;
    ConfigFile.ConfigTextLocal(v, w);
  }

  /** A configuration that matches its values still matches them after the
      validator's check: the error is not among the template's keys. */
  lemma CheckKeepsConfig(d: Params, validate: Validator)
    requires Error in d && Config in d && ConfigFile.TemplateKeys <= d.Keys
    requires d[Config] == ConfigFile.ConfigText(d)
    ensures var c := Check(d, validate);
      ConfigFile.TemplateKeys <= c.Keys && c[Config] == ConfigFile.ConfigText(c)
  {
    assert Error !in ConfigFile.TemplateKeys;
    match validate(d)
    case Some(m) => ConfigFile.ConfigTextIgnores(d, Error, m);
    case None =>
  }

  /** The configuration shown with a derived response is the template filled
      in with exactly the values shown next to it. */
  lemma ConfigMatchesValues(request: Params, validate: Validator, cidr: IPv4.Cidr, n: nat)
    requires Reads(request, cidr, n)
    requires IPv4.Size(cidr) >= 2 * n + 14
    ensures var r := Process(request, validate);
      && r.Ok?
      && r.value.values.Keys == ResponseKeys
      && r.value.values[Config] == ConfigFile.ConfigText(r.value.values)
  {
    var params := UserParams(request);
    var values := Normalize(request);
    var d := Derive(params, values, cidr, n);
    ResponseIsDerived(request, validate, cidr, n);
    FillConfig(values, Resolve(params, cidr, n));
    assert d == Fill(values, Resolve(params, cidr, n));
    CheckKeepsConfig(d, validate);
  }

  /** A parameter whose name the wizard does not know changes nothing in the
      response. */
  lemma UnknownNameIgnored(request: Request, name: string, value: string, validate: Validator)
    requires KeyOf(name).None?
    ensures ProcessRequest(request[name := value], validate) == ProcessRequest(request, validate)
  {
    DecodeIgnores(request, name, value);
  }
}

=== FILE: text.dfy ===
/** Decimal numerals and separator splitting: the small amount of text
    handling that address rendering and parsing rests on. */
module Text {
  import opened Options

  predicate IsDigit(c: char) {
    '0' <= c <= '9'
  }

  predicate AllDigits(s: string) {
    forall i :: 0 <= i < |s| ==> IsDigit(s[i])
  }

  function DigitChar(d: nat): (c: char)
    requires d < 10
    ensures IsDigit(c)
  {
    ('0' as int + d) as char
  }

  function DigitValue(c: char): (d: nat)
    requires IsDigit(c)
    ensures d < 10
  {
    c as int - '0' as int
  }

  /** The decimal numeral of `n` without leading zeros, as Python's `str(n)`. */
  function FromNat(n: nat): (s: string)
    ensures 1 <= |s|
    ensures AllDigits(s)
    ensures |s| > 1 ==> s[0] != '0'
    decreases n
  {
    if n < 10 then [DigitChar(n)] else FromNat(n / 10) + [DigitChar(n % 10)]
  }

  /** The value of a run of decimal digits; leading zeros are accepted. */
  function DigitsValue(s: string): nat
    requires AllDigits(s)
  {
    if |s| == 0 then 0 else DigitsValue(s[..|s| - 1]) * 10 + DigitValue(s[|s| - 1])
  }

  /** Reads a non-negative decimal integer; anything but a non-empty run of
      digits is rejected. */
  function ParseNat(s: string): (r: Option<nat>)
    ensures r.Some? <==> |s| > 0 && AllDigits(s)
  {
    if |s| > 0 && AllDigits(s) then Some(DigitsValue(s)) else None
  }

  lemma {:induction false} DigitsValueOfFromNat(n: nat)
    ensures DigitsValue(FromNat(n)) == n
    decreases n
  {
    if n >= 10 {
      var s := FromNat(n);
      assert s[..|s| - 1] == FromNat(n / 10);
      DigitsValueOfFromNat(n / 10);
    }
  }

  /** Rendering a number and reading it back gives the number. */
  lemma ParseFromNat(n: nat)
    ensures ParseNat(FromNat(n)) == Some(n)
  {
    DigitsValueOfFromNat(n);
  }

  /** The parts joined back together with `sep` between neighbours. */
  function Join(parts: seq<string>, sep: char): string
    requires |parts| >= 1
  {
    if |parts| == 1 then parts[0] else parts[0] + [sep] + Join(parts[1..], sep)
  }

  /** The maximal `sep`-free pieces of `s`, as Python's `s.split(sep)`. */
  function SplitOn(s: string, sep: char): (parts: seq<string>)
    ensures |parts| >= 1
    ensures forall i :: 0 <= i < |parts| ==> sep !in parts[i]
    ensures Join(parts, sep) == s
    decreases |s|
  {
    if |s| == 0 then [""]
    else if s[0] == sep then
      var rest := SplitOn(s[1..], sep);
      assert s == [sep] + s[1..];
      [""] + rest
    else
      var rest := SplitOn(s[1..], sep);
      var parts := [[s[0]] + rest[0]] + rest[1..];
      assert parts[1..] == rest[1..];
      assert s == [s[0]] + s[1..];
      parts
  }

  lemma {:induction false} SplitOnPrefix(x: string, y: string, sep: char)
    requires sep !in x
    ensures SplitOn(x + [sep] + y, sep) == [x] + SplitOn(y, sep)
    decreases |x|
  {
    var s := x + [sep] + y;
    if |x| == 0 {
      assert s[1..] == y;
    } else {
      assert s[1..] == x[1..] + [sep] + y;
      SplitOnPrefix(x[1..], y, sep);
      assert [x[0]] + x[1..] == x;
    }
  }

  lemma {:induction false} SplitOnNoSep(x: string, sep: char)
    requires sep !in x
    ensures SplitOn(x, sep) == [x]
    decreases |x|
  {
    if |x| > 0 {
      assert sep !in x[1..];
      SplitOnNoSep(x[1..], sep);
      assert [x[0]] + x[1..] == x;
    }
  }

  /** Splitting undoes joining when no part contains the separator. */
  lemma {:induction false} SplitOnJoin(parts: seq<string>, sep: char)
    requires |parts| >= 1
    requires forall i :: 0 <= i < |parts| ==> sep !in parts[i]
    ensures SplitOn(Join(parts, sep), sep) == parts
    decreases |parts|
  {
    if |parts| == 1 {
      SplitOnNoSep(parts[0], sep);
    } else {
      SplitOnJoin(parts[1..], sep);
      SplitOnPrefix(parts[0], Join(parts[1..], sep), sep);
      assert [parts[0]] + parts[1..] == parts;
    }
  }
}

=== FILE: vectors.dfy ===
/** Worked examples: the wizard's own test cases, checked against the model. */
module Scenarios {
  import opened Options
  import opened Text
  import IPv4
  import opened Keys
  import opened Wizard
  import opened WizardProperties

  /** 192.0.2.0/24, the documentation network. */
  const TestNet: IPv4.Cidr := IPv4.Cidr(0xC000_0200, 24)

  lemma Text192()
    ensures FromNat(192) == "192"
  {
  }

  lemma TestNetOctets(d: nat)
    requires d < 256
    ensures IPv4.Octets(0xC000_0200 + d) == [192, 0, 2, d]
  {
    IPv4.FromOctetsRoundTrip([192, 0, 2, d]);
  }

  lemma TestNetText()
    ensures IPv4.CidrToString(TestNet) == "192.0.2.0/24"
  {
    TestNetOctets(0);
    Text192();
    assert FromNat(24) == "24";
    assert [IPv4.ToDotted(TestNet.address), FromNat(24)][1..] == ["24"];
  }

  lemma TestNetParses()
    ensures IPv4.ParseCidr("192.0.2.0/24") == Some(TestNet)
  {
    TestNetText();
    IPv4.CidrRoundTrip(TestNet);
  }

  /** The address at offset `d` of 192.0.2.0/24 is 192.0.2.d. */
  lemma TestNetAddress(d: nat)
    requires d < 256
    ensures d < IPv4.Size(TestNet)
    ensures Dotted(TestNet, d) == IPv4.ToDotted(0xC000_0200 + d)
  {
    assert IPv4.Size(TestNet) == 256;
    assert IPv4.First(TestNet) == 0xC000_0200;
  }

  lemma TestNetAddress1()
    ensures 1 < IPv4.Size(TestNet) && Dotted(TestNet, 1) == "192.0.2.1"
  {
    TestNetAddress(1);
    TestNetOctets(1);
    Text192();
  }

  lemma TestNetAddress2()
    ensures 2 < IPv4.Size(TestNet) && Dotted(TestNet, 2) == "192.0.2.2"
  {
    TestNetAddress(2);
    TestNetOctets(2);
    Text192();
  }

  lemma TestNetAddress3()
    ensures 3 < IPv4.Size(TestNet) && Dotted(TestNet, 3) == "192.0.2.3"
  {
    TestNetAddress(3);
    TestNetOctets(3);
    Text192();
  }

  lemma TestNetAddress4()
    ensures 4 < IPv4.Size(TestNet) && Dotted(TestNet, 4) == "192.0.2.4"
  {
    TestNetAddress(4);
    TestNetOctets(4);
    Text192();
  }

  lemma TestNetAddress15()
    ensures 15 < IPv4.Size(TestNet) && Dotted(TestNet, 15) == "192.0.2.15"
  {
    TestNetAddress(15);
    TestNetOctets(15);
    Text192();
  }

  lemma TestNetAddress16()
    ensures 16 < IPv4.Size(TestNet) && Dotted(TestNet, 16) == "192.0.2.16"
  {
    TestNetAddress(16);
    TestNetOctets(16);
    Text192();
  }

  lemma TestNetAddress17()
    ensures 17 < IPv4.Size(TestNet) && Dotted(TestNet, 17) == "192.0.2.17"
  {
    TestNetAddress(17);
    TestNetOctets(17);
    Text192();
  }

  /** The advanced values of the wizard's tests. */
  const AllParams: Params := map[
    LocalInterface := "p9p1", NetworkCidr := "10.0.0.0/24", NodeCount := "25",
    Hostname := "uc-prod.tripleo.org", LocalIp := "10.0.0.10/24",
    DhcpStart := "10.0.0.20", DhcpEnd := "10.0.0.60",
    InspectionStart := "10.0.0.100", InspectionEnd := "10.0.0.130",
    NetworkGateway := "10.0.0.254", PublicVip := "10.0.0.11", AdminVip := "10.0.0.12"]

  /** "Generate Advanced" on 192.0.2.0/24 with two nodes. */
  const GenerateAdvancedRequest: Params :=
    AllParams[LocalInterface := "eth1"][NetworkCidr := "192.0.2.0/24"][NodeCount := "2"]
      [GenerateAdvanced := "Generate Advanced"]

  lemma GenerateAdvancedInputs()
    ensures Reads(GenerateAdvancedRequest, TestNet, 2)
    ensures Inputs(GenerateAdvancedRequest) == Ok(Setup(TestNet, 2))
    ensures UserParams(GenerateAdvancedRequest).Keys !! AdvancedKeys
  {
    GenerateAdvancedSubmitted();
    TestNetParses();
    Numeral2();
    GenerateAdvancedRecomputes(GenerateAdvancedRequest, v => None);
  }

  lemma Numeral2()
    ensures ParseNat("2") == Some(2)
  {
    assert FromNat(2) == "2";
    ParseFromNat(2);
  }

  /** The submitted advanced values are replaced by the ones derived from
      192.0.2.0/24: the pools at .4-.15 and .16-.17. */
  lemma GenerateAdvancedPools(validate: Validator)
    ensures var r := Process(GenerateAdvancedRequest, validate);
      && r.Ok?
      && r.value.values.Keys == ResponseKeys
      && r.value.values[DhcpStart] == "192.0.2.4"
      && r.value.values[DhcpEnd] == "192.0.2.15"
      && r.value.values[InspectionStart] == "192.0.2.16"
      && r.value.values[InspectionEnd] == "192.0.2.17"
  {
    GenerateAdvancedInputs();
    DerivedValues(GenerateAdvancedRequest, validate, TestNet, 2);
    TestNetAddress4();
    TestNetAddress15();
    TestNetAddress16();
    TestNetAddress17();
  }

  lemma GenerateAdvancedHandled(validate: Validator)
    ensures Process(GenerateAdvancedRequest, validate).Ok?
  {
    GenerateAdvancedInputs();
  }

  lemma GenerateAdvancedSubmitted()
    ensures Generate !in GenerateAdvancedRequest
    ensures GenerateAdvanced in GenerateAdvancedRequest
    ensures GenerateAdvancedRequest[GenerateAdvanced] != ""
    ensures Effective(GenerateAdvancedRequest, LocalInterface) == "eth1"
    ensures Effective(GenerateAdvancedRequest, NetworkCidr) == "192.0.2.0/24"
    ensures Effective(GenerateAdvancedRequest, NodeCount) == "2"
    ensures Error !in GenerateAdvancedRequest
  {
  }

  /** The basic values stay as submitted, on the form page. */
  lemma GenerateAdvancedBasics(validate: Validator)
    ensures var r := Process(GenerateAdvancedRequest, validate);
      && r.Ok?
      && r.value.page == Form
      && r.value.values[LocalInterface] == "eth1"
      && r.value.values[NetworkCidr] == "192.0.2.0/24"
      && r.value.values[NodeCount] == "2"
  {
    GenerateAdvancedHandled(validate);
    GenerateAdvancedSubmitted();
  }

  /** ... and, with a validator that accepts the configuration, the error
      is empty. */
  lemma GenerateAdvancedNoError()
    ensures var r := Process(GenerateAdvancedRequest, Accept);
      r.Ok? && r.value.values[Error] == ""
  {
    GenerateAdvancedInputs();
    GenerateAdvancedSubmitted();
    assert IPv4.Size(TestNet) == 256;
    ValidatorDecidesError(GenerateAdvancedRequest, Accept, TestNet, 2);
  }

  /** ... the undercloud's own addresses are .1, .2 and .3, under the
      default host name ... */
  lemma GenerateAdvancedHosts(validate: Validator)
    ensures var r := Process(GenerateAdvancedRequest, validate);
      && r.Ok?
      && r.value.values.Keys == ResponseKeys
      && r.value.values[Hostname] == "undercloud.localdomain"
      && r.value.values[NetworkGateway] == "192.0.2.1"
      && r.value.values[PublicVip] == "192.0.2.2"
      && r.value.values[AdminVip] == "192.0.2.3"
  {
    GenerateAdvancedInputs();
    DerivedValues(GenerateAdvancedRequest, validate, TestNet, 2);
    TestNetAddress1();
    TestNetAddress2();
    TestNetAddress3();
  }

  /** ... and the local IP carries the prefix length. */
  lemma GenerateAdvancedLocalIp(validate: Validator)
    ensures var r := Process(GenerateAdvancedRequest, validate);
      && r.Ok?
      && r.value.values.Keys == ResponseKeys
      && r.value.values[LocalIp] == "192.0.2.1/24"
  {
    GenerateAdvancedInputs();
    DerivedValues(GenerateAdvancedRequest, validate, TestNet, 2);
    TestNetAddress1();
    LocalIpText();
  }

  lemma LocalIpText()
    ensures "192.0.2.1" + "/" + FromNat(24) == "192.0.2.1/24"
  {
    assert FromNat(24) == "24";
  }

  /** 10.0.0.0/24, the network of the wizard's tests. */
  const LabNet: IPv4.Cidr := IPv4.Cidr(0x0A00_0000, 24)

  lemma LabNetOctets(d: nat)
    requires d < 256
    ensures IPv4.Octets(0x0A00_0000 + d) == [10, 0, 0, d]
  {
    IPv4.FromOctetsRoundTrip([10, 0, 0, d]);
  }

  lemma LabNetText()
    ensures IPv4.CidrToString(LabNet) == "10.0.0.0/24"
  {
    LabNetOctets(0);
    assert FromNat(10) == "10" && FromNat(24) == "24";
    assert [IPv4.ToDotted(LabNet.address), FromNat(24)][1..] == ["24"];
  }

  lemma LabNetParses()
    ensures IPv4.ParseCidr("10.0.0.0/24") == Some(LabNet)
  {
    LabNetText();
    IPv4.CidrRoundTrip(LabNet);
  }

  /** The basic fields of the wizard's tests. */
  const BasicRequest: Params :=
    map[LocalInterface := "p9p1", NetworkCidr := "10.0.0.0/24", NodeCount := "25"]

  /** Asking for 250 nodes on a /24. */
  const CrowdedRequest: Params := BasicRequest[NodeCount := "250"]

  lemma Numeral250()
    ensures ParseNat("250") == Some(250)
  {
    assert FromNat(250) == "250";
    ParseFromNat(250);
  }

  lemma CrowdedSubmitted()
    ensures Effective(CrowdedRequest, NetworkCidr) == "10.0.0.0/24"
    ensures Effective(CrowdedRequest, NodeCount) == "250"
  {
  }

  lemma CrowdedInputs()
    ensures Reads(CrowdedRequest, LabNet, 250)
    ensures Inputs(CrowdedRequest) == Ok(Setup(LabNet, 250))
  {
    CrowdedSubmitted();
    LabNetParses();
    Numeral250();
  }

  /** 250 nodes need 514 addresses; a /24 has 256, so the response carries
      the insufficient-addresses error and no derived value. */
  lemma CrowdedBlockRejected(validate: Validator)
    ensures var r := Process(CrowdedRequest, validate);
      && r.Ok?
      && r.value.values.Keys == BasicKeys
      && r.value.values[Error] == InsufficientAddresses
  {
    CrowdedInputs();
    assert IPv4.Size(LabNet) == 256;
    CapacityCheck(CrowdedRequest, validate, LabNet, 250);
  }

  /** The message the configuration validator gives for a DHCP range whose
      start does not come before its end. */
  function DhcpRangeMessage(start: string, end: string): string {
    "Invalid dhcp range specified, dhcp_start \"" + start +
      "\" does not come before dhcp_end \"" + end + "\""
  }

  /** A stand-in for the configuration validator that checks only the
      order of the DHCP range. */
  function DhcpOrder(values: Params): Option<string> {
    if DhcpStart in values && DhcpEnd in values then
      match (IPv4.ParseDotted(values[DhcpStart]), IPv4.ParseDotted(values[DhcpEnd]))
      case (Some(a), Some(b)) =>
        if a < b then None else Some(DhcpRangeMessage(values[DhcpStart], values[DhcpEnd]))
      case _ => None
    else None
  }

  /** Every advanced field of the wizard's tests, with a DHCP range that
      starts after it ends. */
  const BadRangeRequest: Params := AllParams[DhcpStart := "10.0.0.70"]

  lemma Numeral25()
    ensures ParseNat("25") == Some(25)
  {
    assert FromNat(25) == "25";
    ParseFromNat(25);
  }

  lemma BadRangeSubmitted()
    ensures Effective(BadRangeRequest, NetworkCidr) == "10.0.0.0/24"
    ensures Effective(BadRangeRequest, NodeCount) == "25"
    ensures GenerateAdvanced !in BadRangeRequest
    ensures BadRangeRequest[DhcpStart] == "10.0.0.70"
    ensures BadRangeRequest[DhcpEnd] == "10.0.0.60"
  {
  }

  lemma BadRangeInputs()
    ensures Reads(BadRangeRequest, LabNet, 25)
    ensures Inputs(BadRangeRequest) == Ok(Setup(LabNet, 25))
    ensures var p := UserParams(BadRangeRequest);
      DhcpStart in p && p[DhcpStart] == "10.0.0.70" && DhcpEnd in p && p[DhcpEnd] == "10.0.0.60"
  {
    BadRangeSubmitted();
    LabNetParses();
    Numeral25();
    UserParamsKeep(BadRangeRequest, DhcpStart);
    UserParamsKeep(BadRangeRequest, DhcpEnd);
  }

  lemma LabAddress70()
    ensures IPv4.ParseDotted("10.0.0.70") == Some(0x0A00_0046)
  {
    LabNetOctets(70);
    assert FromNat(10) == "10";
    assert IPv4.ToDotted(0x0A00_0046) == "10.0.0.70";
    IPv4.DottedRoundTrip(0x0A00_0046);
  }

  lemma LabAddress60()
    ensures IPv4.ParseDotted("10.0.0.60") == Some(0x0A00_003C)
  {
    LabNetOctets(60);
    assert FromNat(10) == "10";
    assert IPv4.ToDotted(0x0A00_003C) == "10.0.0.60";
    IPv4.DottedRoundTrip(0x0A00_003C);
  }

  /** The submitted range reaches the values unchanged ... */
  lemma BadRangeDerived(validate: Validator)
    ensures var r := Process(BadRangeRequest, validate);
      && r.Ok?
      && r.value.values.Keys == ResponseKeys
      && r.value.values[DhcpStart] == "10.0.0.70"
      && r.value.values[DhcpEnd] == "10.0.0.60"
  {
    BadRangeInputs();
    assert IPv4.Size(LabNet) == 256;
    DerivedValues(BadRangeRequest, validate, LabNet, 25);
  }

  /** ... the validator sees it ... */
  lemma BadRangeChecked()
    ensures IPv4.Size(LabNet) >= Required(25)
    ensures var d := Derive(UserParams(BadRangeRequest), Normalize(BadRangeRequest), LabNet, 25);
      && DhcpStart in d && d[DhcpStart] == "10.0.0.70"
      && DhcpEnd in d && d[DhcpEnd] == "10.0.0.60"
  {
    var request := BadRangeRequest;
    BadRangeInputs();
    assert IPv4.Size(LabNet) == 256;
    var d := Derive(UserParams(request), Normalize(request), LabNet, 25);
    ResponseIsDerived(request, DhcpOrder, LabNet, 25);
    BadRangeDerived(DhcpOrder);
    CheckKeeps(d, DhcpOrder, DhcpStart);
    CheckKeeps(d, DhcpOrder, DhcpEnd);
  }

  /** ... and objects ... */
  lemma BadRangeObjection(values: Params)
    requires DhcpStart in values && values[DhcpStart] == "10.0.0.70"
    requires DhcpEnd in values && values[DhcpEnd] == "10.0.0.60"
    ensures DhcpOrder(values) == Some(DhcpRangeMessage("10.0.0.70", "10.0.0.60"))
  {
    LabAddress70();
    LabAddress60();
  }

  /** ... and its message becomes the error shown. */
  lemma BadRangeReported()
    ensures var r := Process(BadRangeRequest, DhcpOrder);
      && r.Ok?
      && r.value.values[Error] == DhcpRangeMessage("10.0.0.70", "10.0.0.60")
  {
    BadRangeInputs();
    BadRangeChecked();
    ObjectionShown(BadRangeRequest, LabNet, 25);
  }

  /** Any handled submission whose derived range is .70 to .60 shows the
      objection as its error. */
  lemma ObjectionShown(request: Params, cidr: IPv4.Cidr, n: nat)
    requires Reads(request, cidr, n)
    requires IPv4.Size(cidr) >= Required(n)
    requires var d := Derive(UserParams(request), Normalize(request), cidr, n);
      && DhcpStart in d && d[DhcpStart] == "10.0.0.70"
      && DhcpEnd in d && d[DhcpEnd] == "10.0.0.60"
    ensures var r := Process(request, DhcpOrder);
      && r.Ok?
      && r.value.values[Error] == DhcpRangeMessage("10.0.0.70", "10.0.0.60")
  {
    var d := Derive(UserParams(request), Normalize(request), cidr, n);
    BadRangeObjection(d);
    ValidatorDecidesError(request, DhcpOrder, cidr, n);
  }

  /** A validator that accepts every configuration. */
  function Accept(values: Params): Option<string> {
    None
  }

  lemma BasicSubmitted()
    ensures Effective(BasicRequest, LocalInterface) == "p9p1"
    ensures Effective(BasicRequest, NetworkCidr) == "10.0.0.0/24"
    ensures Effective(BasicRequest, NodeCount) == "25"
    ensures Error !in BasicRequest && Generate !in BasicRequest
  {
  }

  lemma BasicInputs()
    ensures Reads(BasicRequest, LabNet, 25)
    ensures Inputs(BasicRequest) == Ok(Setup(LabNet, 25))
  {
    BasicSubmitted();
    LabNetParses();
    Numeral25();
  }

  /** The basic fields come back as submitted, with no error. */
  lemma BasicInputEchoed()
    ensures var r := Process(BasicRequest, Accept);
      && r.Ok?
      && r.value.page == Form
      && r.value.values[LocalInterface] == "p9p1"
      && r.value.values[NetworkCidr] == "10.0.0.0/24"
      && r.value.values[NodeCount] == "25"
      && r.value.values[Error] == ""
  {
    BasicInputs();
    BasicSubmitted();
    assert IPv4.Size(LabNet) == 256;
    ValidatorDecidesError(BasicRequest, Accept, LabNet, 25);
  }

  lemma AllSubmitted()
    ensures Effective(AllParams, LocalInterface) == "p9p1"
    ensures Effective(AllParams, NetworkCidr) == "10.0.0.0/24"
    ensures Effective(AllParams, NodeCount) == "25"
    ensures Error !in AllParams && GenerateAdvanced !in AllParams && Generate !in AllParams
  {
  }

  /** The advanced values of the wizard's tests all reach allocation. */
  lemma AllKept()
    ensures var p := UserParams(AllParams);
      && Hostname in p && p[Hostname] == "uc-prod.tripleo.org"
      && LocalIp in p && p[LocalIp] == "10.0.0.10/24"
      && DhcpStart in p && p[DhcpStart] == "10.0.0.20"
      && DhcpEnd in p && p[DhcpEnd] == "10.0.0.60"
      && InspectionStart in p && p[InspectionStart] == "10.0.0.100"
      && InspectionEnd in p && p[InspectionEnd] == "10.0.0.130"
      && NetworkGateway in p && p[NetworkGateway] == "10.0.0.254"
      && PublicVip in p && p[PublicVip] == "10.0.0.11"
      && AdminVip in p && p[AdminVip] == "10.0.0.12"
  {
    var p := UserParams(AllParams);
    assert p == NonEmpty(AllParams);
    assert NonEmpty(AllParams) == AllParams;
  }

  lemma AllInputs()
    ensures Reads(AllParams, LabNet, 25)
    ensures Inputs(AllParams) == Ok(Setup(LabNet, 25))
  {
    AllSubmitted();
    LabNetParses();
    Numeral25();
  }

  /** Every advanced field comes back as submitted, with no error ... */
  lemma AdvancedInputEchoed()
    ensures var r := Process(AllParams, Accept);
      && r.Ok?
      && r.value.page == Form
      && r.value.values.Keys == ResponseKeys
      && r.value.values[Hostname] == "uc-prod.tripleo.org"
      && r.value.values[LocalIp] == "10.0.0.10/24"
      && r.value.values[DhcpStart] == "10.0.0.20"
      && r.value.values[DhcpEnd] == "10.0.0.60"
      && r.value.values[InspectionStart] == "10.0.0.100"
      && r.value.values[InspectionEnd] == "10.0.0.130"
      && r.value.values[NetworkGateway] == "10.0.0.254"
      && r.value.values[PublicVip] == "10.0.0.11"
      && r.value.values[AdminVip] == "10.0.0.12"
  {
    AllInputs();
    AllKept();
    AllSubmitted();
    assert IPv4.Size(LabNet) == 256;
    DerivedValues(AllParams, Accept, LabNet, 25);
  }

  /** ... and so do the basic fields. */
  lemma AdvancedBasicsEchoed()
    ensures var r := Process(AllParams, Accept);
      && r.Ok?
      && r.value.page == Form
      && r.value.values[LocalInterface] == "p9p1"
      && r.value.values[NetworkCidr] == "10.0.0.0/24"
      && r.value.values[NodeCount] == "25"
      && r.value.values[Error] == ""
  {
    AllInputs();
    AllSubmitted();
    assert IPv4.Size(LabNet) == 256;
    ValidatorDecidesError(AllParams, Accept, LabNet, 25);
  }

  /** "Generate Configuration" pressed on the advanced values. */
  const GenerateRequest: Params := AllParams[Generate := "Generate Configuration"]

  lemma GenerateSubmitted()
    ensures Effective(GenerateRequest, NetworkCidr) == "10.0.0.0/24"
    ensures Effective(GenerateRequest, NodeCount) == "25"
    ensures Generate in GenerateRequest && GenerateRequest[Generate] != ""
  {
  }

  /** The button leads to the page with the generated configuration. */
  lemma GenerateShowsConfig(validate: Validator)
    ensures var r := Process(GenerateRequest, validate);
      r.Ok? && r.value.page == GeneratedConfig
  {
    GenerateSubmitted();
    LabNetParses();
    Numeral25();
  }

  /** A parameter the wizard does not know, such as `foo`, leaves no trace:
      the response is the one for an empty submission. */
  lemma BogusKeyIgnored(validate: Validator)
    ensures ProcessRequest(map["foo" := "bar"], validate) == ProcessRequest(map[], validate)
  {
    assert KeyOf("foo").None?;
    UnknownNameIgnored(map[], "foo", "bar", validate);
    assert map[]["foo" := "bar"] == map["foo" := "bar"];
  }

  /** 192.168.0.0/24, the block used when none is submitted. */
  const HomeNet: IPv4.Cidr := IPv4.Cidr(0xC0A8_0000, 24)

  lemma HomeNetOctets(d: nat)
    requires d < 256
    ensures IPv4.Octets(0xC0A8_0000 + d) == [192, 168, 0, d]
  {
    IPv4.FromOctetsRoundTrip([192, 168, 0, d]);
  }

  lemma Text168()
    ensures FromNat(168) == "168"
  {
  }

  lemma HomeNetDotted()
    ensures IPv4.ToDotted(0xC0A8_0000) == "192.168.0.0"
  {
    HomeNetOctets(0);
    Text192();
    Text168();
  }

  lemma HomeNetText()
    ensures IPv4.CidrToString(HomeNet) == "192.168.0.0/24"
  {
    HomeNetDotted();
    assert FromNat(24) == "24";
    assert [IPv4.ToDotted(HomeNet.address), FromNat(24)][1..] == ["24"];
  }

  lemma HomeNetParses()
    ensures IPv4.ParseCidr("192.168.0.0/24") == Some(HomeNet)
  {
    HomeNetText();
    IPv4.CidrRoundTrip(HomeNet);
  }

  /** A submission with no parameters at all. */
  const EmptyRequest: Params := map[]

  /** An empty submission gets the form page with the default basic values:
      interface eth1, block 192.168.0.0/24, two nodes. */
  lemma EmptyRequestDefaults(validate: Validator)
    ensures var r := Process(EmptyRequest, validate);
      && r.Ok?
      && r.value.page == Form
      && r.value.values[LocalInterface] == "eth1"
      && r.value.values[NetworkCidr] == "192.168.0.0/24"
      && r.value.values[NodeCount] == "2"
  {
    EmptyHandled(validate);
    EmptySubmitted();
  }

  lemma EmptyHandled(validate: Validator)
    ensures Process(EmptyRequest, validate).Ok?
  {
    EmptyInputs();
  }

  lemma EmptyInputs()
    ensures Inputs(EmptyRequest) == Ok(Setup(HomeNet, 2))
  {
    EmptySubmitted();
    HomeNetParses();
    Numeral2();
  }

  lemma EmptySubmitted()
    ensures Effective(EmptyRequest, LocalInterface) == "eth1"
    ensures Effective(EmptyRequest, NetworkCidr) == "192.168.0.0/24"
    ensures Effective(EmptyRequest, NodeCount) == "2"
    ensures Generate !in EmptyRequest
  {
  }
}

=== FILE: wizard.dfy ===
/** The undercloud wizard's request handling (`process_request`): the form's
    parameters are normalised against the basic defaults, then every network
    value of undercloud.conf is derived from fixed offsets into the
    provisioning CIDR unless the operator supplied it. */
module Wizard {
  import opened Options
  import opened Text
  import opened Keys
  import IPv4
  import ConfigFile

  /** A submission with its names read as keys, or the values handed to the
      page template. */
  type Params = map<Key, string>

  /** `default_basic`. */
  const DefaultBasic: Params :=
    map[LocalInterface := "eth1", NetworkCidr := "192.168.0.0/24", NodeCount := "2"]

  /** `advanced_keys`: the fields a "Generate Advanced" request recomputes. */
  const AdvancedKeys: set<Key> := {
    Hostname, LocalIp, DhcpStart, DhcpEnd, InspectionStart, InspectionEnd,
    NetworkGateway, PublicVip, AdminVip, LocalMtu, ServiceCertificate
  }

  /** The keys the normalised values start with. */
  const BasicKeys: set<Key> := {LocalInterface, NetworkCidr, NodeCount, Error}

  /** The keys allocation fills in. */
  const DerivedKeys: set<Key> := AdvancedKeys + {MasqueradeNetwork, Config}

  /** Every key a response can carry. */
  const ResponseKeys: set<Key> := BasicKeys + DerivedKeys

  /** How the key sets relate. */
  lemma KeySets()
    ensures DefaultBasic.Keys == {LocalInterface, NetworkCidr, NodeCount}
    ensures BasicKeys == DefaultBasic.Keys + {Error}
    ensures BasicKeys !! DerivedKeys
    ensures ConfigFile.TemplateKeys <= ResponseKeys
    ensures Generate !in AdvancedKeys && GenerateAdvanced !in AdvancedKeys
  {
  }

  /** Addresses set aside for virtual IPs. */
  const VirtualIps: nat := 10
  /** local_ip, public VIP, admin VIP. */
  const UndercloudIps: nat := 3

  const DefaultHostname: string := "undercloud.localdomain"
  const DefaultMtu: string := "1500"
  const InsufficientAddresses: string := "Insufficient addresses available in provisioning CIDR"

  /** The page template a response is rendered with. */
  datatype Page = Form | GeneratedConfig

  /** Failures the request handler does not catch: the text of the CIDR or of
      the node count could not be read. */
  datatype Fatal = MalformedCidr(text: string) | MalformedNodeCount(text: string)

  datatype Response = Response(page: Page, values: Params)

  /** The configuration validator: a message for the first problem it finds,
      or nothing when the values are acceptable. */
  type Validator = Params -> Option<string>

  /** The submission with empty values dropped and, for a "Generate Advanced"
      request, the advanced fields dropped as well. */
  function UserParams(request: Params): Params {
    var given := NonEmpty(request);
    if GenerateAdvanced in given then given - AdvancedKeys else given
  }

  /** The submitted entries whose value is not empty. */
  function NonEmpty(request: Params): (given: Params)
    ensures forall k :: k in given <==> k in request && request[k] != ""
    ensures forall k :: k in given ==> given[k] == request[k]
  {
    map k | k in request && request[k] != "" :: request[k]
  }

  /** A key survives exactly when it was submitted with a non-empty value,
      unless it is an advanced one and "Generate Advanced" was pressed; a
      surviving key keeps its value. */
  lemma UserParamsKeep(request: Params, k: Key)
    ensures k in UserParams(request) <==>
      && k in request && request[k] != ""
      && (k in AdvancedKeys ==> !(GenerateAdvanced in request && request[GenerateAdvanced] != ""))
    ensures k in UserParams(request) ==> UserParams(request)[k] == request[k]
  {
  }

  function PageFor(params: Params): Page {
    if Generate in params then GeneratedConfig else Form
  }

  /** `default_basic` with an empty error, each entry replaced by the user's
      value for that key when there is one. */
  function InitialValues(params: Params): Params {
    var basic := DefaultBasic[Error := ""];
    map k | k in basic :: if k in params then params[k] else basic[k]
  }

  /** The values a request is normalised to before allocation: exactly the
      basic keys, each taken from the submission when given there non-empty
      ("Generate Advanced" does not touch them). */
  function Normalize(request: Params): (r: Params)
    ensures r.Keys == BasicKeys
    ensures forall k :: k in DefaultBasic ==> r[k] == Effective(request, k)
    ensures r[Error] == if Error in request && request[Error] != "" then request[Error] else ""
  {
    KeySets();
    InitialValues(UserParams(request))
  }

  /** The provisioning block and node count a request asks for. */
  function Inputs(request: Params): Result<Setup, Fatal> {
    Parse(Normalize(request))
  }

  /** The value a basic key takes: the user's, when non-empty, or the default. */
  function Effective(request: Params, k: Key): string
    requires k in DefaultBasic
  {
    if k in request && request[k] != "" then request[k] else DefaultBasic[k]
  }

  /** `params.get(key, default)`. */
  function Get(params: Params, key: Key, default: string): string {
    if key in params then params[key] else default
  }

  /** Offsets into the provisioning block of the derived addresses. */
  datatype Plan = Plan(
    localIp: nat, publicVip: nat, adminVip: nat,
    dhcpStart: nat, dhcpEnd: nat, inspectionStart: nat, inspectionEnd: nat)

  function PlanFor(n: nat): Plan {
    var dhcpStart := 1 + UndercloudIps;
    var dhcpEnd := dhcpStart + n + VirtualIps - 1;
    var inspectionStart := dhcpEnd + 1;
    var inspectionEnd := inspectionStart + n - 1;
    Plan(1, 2, 3, dhcpStart, dhcpEnd, inspectionStart, inspectionEnd)
  }

  /** The plan's offsets in closed form. */
  lemma PlanOffsets(n: nat)
    ensures PlanFor(n) == Plan(1, 2, 3, 4, n + 13, n + 14, 2 * n + 13)
  {
  }

  /** The least block size the handler accepts for `n` nodes. */
  function Required(n: nat): nat {
    n * 2 + VirtualIps + UndercloudIps + 1
  }

  /** The parsed provisioning block and node count. */
  datatype Setup = Setup(cidr: IPv4.Cidr, nodes: nat)

  function Parse(values: Params): (r: Result<Setup, Fatal>)
    requires BasicKeys <= values.Keys
    ensures r.Ok? ==> IPv4.Valid(r.value.cidr)
  {
    match IPv4.ParseCidr(values[NetworkCidr])
    case None => Err(MalformedCidr(values[NetworkCidr]))
    case Some(cidr) =>
      match ParseNat(values[NodeCount])
      case None => Err(MalformedNodeCount(values[NodeCount]))
      case Some(n) => Ok(Setup(cidr, n))
  }

  /** Every offset of the plan lies inside any block that passes the
      capacity check. For `n` = 0 the check admits 14 addresses while
      `inspection_start` sits at offset 14; only because block sizes are
      powers of two (so at least 16) does that offset stay inside. */
  lemma PlanFits(cidr: IPv4.Cidr, n: nat)
    requires IPv4.Valid(cidr) && IPv4.Size(cidr) >= Required(n)
    ensures PlanFor(n).localIp < IPv4.Size(cidr)
    ensures PlanFor(n).publicVip < IPv4.Size(cidr)
    ensures PlanFor(n).adminVip < IPv4.Size(cidr)
    ensures PlanFor(n).dhcpStart < IPv4.Size(cidr)
    ensures PlanFor(n).dhcpEnd < IPv4.Size(cidr)
    ensures PlanFor(n).inspectionStart < IPv4.Size(cidr)
    ensures PlanFor(n).inspectionEnd < IPv4.Size(cidr)
  {
    if n == 0 {
      IPv4.Pow2Gap(32 - cidr.prefix);
    }
  }

  /** `str(cidr[i])`. */
  function Dotted(cidr: IPv4.Cidr, i: nat): string
    requires IPv4.Valid(cidr) && i < IPv4.Size(cidr)
  {
    IPv4.ToDotted(IPv4.AddressAt(cidr, i))
  }

  /** The values of the derivable fields, before they are written into the
      parameter map. */
  datatype Fields = Fields(
    hostname: string, localIp: string, localMtu: string, gateway: string,
    publicVip: string, adminVip: string, dhcpStart: string, dhcpEnd: string,
    inspectionStart: string, inspectionEnd: string, certificate: string)

  /** Each derivable field: the user's value when given, otherwise a fixed
      default or the address at the plan's offset into the block. */
  function Resolve(params: Params, cidr: IPv4.Cidr, n: nat): Fields
    requires IPv4.Valid(cidr) && IPv4.Size(cidr) >= Required(n)
  {
    var plan := PlanFor(n);
    PlanFits(cidr, n);
    var firstHost := Dotted(cidr, plan.localIp);
    Fields(
      hostname := Get(params, Hostname, DefaultHostname),
      localIp := Get(params, LocalIp, firstHost + "/" + FromNat(cidr.prefix)),
      localMtu := Get(params, LocalMtu, DefaultMtu),
      gateway := Get(params, NetworkGateway, firstHost),
      publicVip := Get(params, PublicVip, Dotted(cidr, plan.publicVip)),
      adminVip := Get(params, AdminVip, Dotted(cidr, plan.adminVip)),
      dhcpStart := Get(params, DhcpStart, Dotted(cidr, plan.dhcpStart)),
      dhcpEnd := Get(params, DhcpEnd, Dotted(cidr, plan.dhcpEnd)),
      inspectionStart := Get(params, InspectionStart, Dotted(cidr, plan.inspectionStart)),
      inspectionEnd := Get(params, InspectionEnd, Dotted(cidr, plan.inspectionEnd)),
      certificate := Get(params, ServiceCertificate, ""))
  }

  /** The fields written into the values, with the masquerade network set
      to the CIDR text. */
  function Store(values: Params, f: Fields): Params
    requires BasicKeys <= values.Keys
  {
    values
      [Hostname := f.hostname]
      [LocalIp := f.localIp]
      [LocalMtu := f.localMtu]
      [NetworkGateway := f.gateway]
      [PublicVip := f.publicVip]
      [AdminVip := f.adminVip]
      [DhcpStart := f.dhcpStart]
      [DhcpEnd := f.dhcpEnd]
      [InspectionStart := f.inspectionStart]
      [InspectionEnd := f.inspectionEnd]
      [MasqueradeNetwork := values[NetworkCidr]]
      [ServiceCertificate := f.certificate]
  }

  /** The stored fields, then the configuration text rendered from them. */
  function Fill(values: Params, f: Fields): Params
    requires BasicKeys <= values.Keys
  {
    var v := Store(values, f);
    assert ConfigFile.TemplateKeys <= v.Keys;
    v[Config := ConfigFile.ConfigText(v)]
  }

  /** Allocation's result when the capacity check passes, before validation. */
  function Derive(params: Params, values: Params, cidr: IPv4.Cidr, n: nat): (r: Params)
    requires BasicKeys <= values.Keys
    requires IPv4.Valid(cidr) && IPv4.Size(cidr) >= Required(n)
    ensures r.Keys == values.Keys + DerivedKeys
    ensures forall k :: k in values && k !in DerivedKeys ==> r[k] == values[k]
  {
    Fill(values, Resolve(params, cidr, n))
  }

  /** The capacity check, derivation and validation; a failed check or a
      validator message becomes the `error` value. */
  function Allocate(params: Params, values: Params, validate: Validator): (r: Result<Params, Fatal>)
    requires values.Keys == BasicKeys
    ensures r.Err? <==> Parse(values).Err?
    ensures r.Ok? ==> BasicKeys <= r.value.Keys <= ResponseKeys
    ensures r.Ok? ==> forall k :: k in DefaultBasic ==> r.value[k] == values[k]
    ensures r.Ok? ==>
      (IPv4.Size(Parse(values).value.cidr) >= Required(Parse(values).value.nodes) <==> DerivedKeys <= r.value.Keys)
  {
    KeySets();
    match Parse(values)
    case Err(e) => Err(e)
    case Ok(Setup(cidr, n)) =>
      if IPv4.Size(cidr) < Required(n) then Ok(values[Error := InsufficientAddresses])
      else Ok(Check(Derive(params, values, cidr, n), validate))
  }

  /** `validator.validate_config(values, err_callback)` with the raised
      message caught: the validator's message, if any, becomes the error. */
  function Check(derived: Params, validate: Validator): (r: Params)
    requires Error in derived
    ensures r.Keys == derived.Keys
    ensures forall k :: k in derived && k != Error ==> r[k] == derived[k]
    ensures r[Error] == match validate(derived) case Some(m) => m case None => derived[Error]
  {
    match validate(derived)
    case Some(message) => derived[Error := message]
    case None => derived
  }

  /** Everything after the submission is reduced to the user's parameters:
      the normalised values, allocation and the page choice. */
  function Handle(params: Params, validate: Validator): (r: Result<Response, Fatal>)
    ensures r.Err? <==> Parse(InitialValues(params)).Err?
    ensures r.Ok? ==> BasicKeys <= r.value.values.Keys <= ResponseKeys
    ensures r.Ok? ==> forall k :: k in DefaultBasic ==> r.value.values[k] == InitialValues(params)[k]
    ensures r.Ok? ==> (r.value.page == GeneratedConfig <==> Generate in params)
  {
    var values := InitialValues(params);
    KeySets();
    match Allocate(params, values, validate)
    case Ok(v) => Ok(Response(PageFor(params), v))
    case Err(e) => Err(e)
  }

  /** `process_request` on a submission whose names have been read as keys:
      the page to render and the values to render it with. */
  function Process(request: Params, validate: Validator): (r: Result<Response, Fatal>)
    ensures r.Ok? <==> Inputs(request).Ok?
    ensures r.Ok? ==> BasicKeys <= r.value.values.Keys <= ResponseKeys
    ensures r.Ok? ==> forall k :: k in DefaultBasic ==> r.value.values[k] == Effective(request, k)
    ensures r.Ok? ==>
      (r.value.page == GeneratedConfig <==> Generate in request && request[Generate] != "")
  {
    var params := UserParams(request);
    assert InitialValues(params) == Normalize(request);
    KeySets();
    UserParamsKeep(request, Generate);
    Handle(params, validate)
  }

  /** The value a submission gives the parameter `name`, when non-empty, or
      `default`. */
  function Submitted(request: Request, name: string, default: string): string {
    if name in request && request[name] != "" then request[name] else default
  }

  /** A basic key's effective value in a decoded submission is the value
      submitted under its name, or the default. */
  lemma EffectiveSubmitted(request: Request, k: Key)
    requires k in DefaultBasic
    ensures Effective(Decode(request), k) == Submitted(request, Name(k), DefaultBasic[k])
  {
    DecodeKey(request, k);
  }

  /** `process_request`: the submission's names are read as keys, then it is
      handled as above. Only the keys the handler knows reach the response;
      each basic value is the one submitted under its name, when non-empty,
      or the default. */
  function ProcessRequest(request: Request, validate: Validator): (r: Result<Response, Fatal>)
    ensures r.Ok? ==> BasicKeys <= r.value.values.Keys <= ResponseKeys
    ensures r.Ok? ==> forall k :: k in DefaultBasic ==>
      r.value.values[k] == Submitted(request, Name(k), DefaultBasic[k])
    ensures r.Ok? ==>
      (r.value.page == GeneratedConfig <==> Name(Generate) in request && request[Name(Generate)] != "")
  {
    KeySets();
    DecodeKey(request, Generate);
    forall k | k in DefaultBasic
      ensures Effective(Decode(request), k) == Submitted(request, Name(k), DefaultBasic[k])
    {
      EffectiveSubmitted(request, k);
    }
    Process(Decode(request), validate)
  }
}
